=== FILE: README.md ===
# SunJar core in Dafny

SunJar shows a jar of seventeen "day" spheres that roll around as the
device tilts and buzz when they hit each other or the jar's glass. This
project models three parts of the app and proves properties about them:

- **The initial layout** (`CirclePackingAlgorithm`). `packCircles` gives
  each sphere up to 1000 random candidate centres inside a safe
  rectangle. A candidate is accepted when it lies inside the jar's rounded
  outline (`isValidPosition`) and at least `2.2 * radius` from every
  sphere already placed. When all 1000 candidates fail, a lattice fallback
  runs (`findGridPosition`). It searches square rings around the centre
  cell, row by row, and takes the first acceptable cell.
- **The two physics front ends.** One is the SpriteKit scene
  (`BottleScene`). The other is the UIDynamics view (`UD/BottleView`).
  Both shuffle the sphere kinds (7 perfect, 5 nice and 5 good) and put one
  sphere on each packed position. They classify contacts, debounce
  sphere–sphere contacts over 0.1 s, normalise contact speeds to an
  intensity, and drop intensities at or below 0.1. They differ in how a
  pulse is played:
  - The scene plays a transient pattern whose intensity is clamped to
    [0.1, 1]. It restarts the engine once, dropping the event, when the
    engine is not running or playback throws.
  - The view drives a pre-built player. Its intensity and volume are
    linearly remapped onto [0.3, 1] and [0.1, 0.5]. Failures are
    swallowed.
- **Tilt** (`handleMotionUpdate`). The device gravity, scaled, becomes the
  world's gravity: by 15 in the scene, and by (3.5, −3.5) in the view,
  whose y axis points down.

Modules follow the source:
- `Prelude`: option and trap outcomes, and min/max/clamp/truncation.
- `RoundedRect`: the safe rectangle and `isValidPosition`.
- `PackingRules`: the acceptance test for a candidate.
- `GridSearch`: `findGridPosition`.
- `CirclePacking`: `packCircles`.
- `Spheres`: sphere kinds, the shuffle and sphere creation.
- `Haptics`: what both front ends share about intensities.
- `BottleScene` and `BottleView`: the two front ends.
- `Motion`: gravity mapping.

Modelling choices:
- CoreGraphics values are modelled as exact reals.
- `sqrt` is never computed. Each distance test is stated on squares.
  For example, `sqrt(d) < s` holds exactly when `s > 0 && d < s * s`.
- Speeds that the source obtains with `sqrt` are inputs. `IsMagnitude`
  ties each one to its velocity.
- The Swift runtime traps of the packing are the explicit outcome
  `Trap`. Examples are `Int(±inf)` and an inverted `0...-1` range. The
  `try!` in the scene's pattern builder is not among them (see "Left
  out").
- Randomness, the media clock, asset loading and every platform call
  that can throw are parameters:
  - an oracle `draw(circle, attempt)` gives the packing's candidates;
  - `pick` gives the shuffle's draws;
  - `loads` says whether each sphere's asset loads;
  - `Platform` values say how the engine and the player calls turn out.

`CGRect` normalises a rectangle with a negative width. So in a container
too small for the margins, the safe rectangle is the normalised one, and
`CGFloat.random(in: minX...maxX)` does not trap. The model builds the
safe rectangle already normalised (`RoundedRect.MakeRect`).

## Model

| member | source | states |
|---|---|---|
| RoundedRect.SafeRect | SunJar/CirclePackingAlgorithm.swift:21-28 | the safe rectangle is normalised; when the container fits the margins it spans `[inset + margin, size - (inset + margin)]` on each axis |
| RoundedRect.CheckCorners | SunJar/CirclePackingAlgorithm.swift:110-131 | the corner loop accepts exactly when every remaining corner either does not contain the point in its quadrant or holds it within the arc |
| RoundedRect.IsValidPosition | SunJar/CirclePackingAlgorithm.swift:79-132 | a position is valid exactly when it lies in the closed safe rectangle and no corner whose quadrant contains it has it farther than `cornerRadius - margin` from the arc centre |
| RoundedRect.CornerRejects | SunJar/CirclePackingAlgorithm.swift:123-127 | a point in a corner quadrant beyond the adjusted radius is rejected |
| RoundedRect.OutsideCornersIsRectTest | SunJar/CirclePackingAlgorithm.swift:92-97 | away from all four corner quadrants, validity is the plain rectangle test |
| RoundedRect.ValidIsRoundedRect | SunJar/CirclePackingAlgorithm.swift:99-131 | for a non-negative adjusted radius that fits the safe rectangle, the valid positions are exactly the rounded rectangle: points within that radius of the inner rectangle |
| PackingRules.SeparatedSymmetric | SunJar/CirclePackingAlgorithm.swift:46-47 | the `distance < radius * 2.2` overlap test does not depend on argument order |
| PackingRules.ClearOf | SunJar/CirclePackingAlgorithm.swift:44-51 | the overlap loop lets a candidate through exactly when it is at least the spacing from every existing centre |
| PackingRules.AppendAcceptable | SunJar/CirclePackingAlgorithm.swift:53-55 | appending an acceptable candidate keeps every centre valid and every pair separated |
| GridSearch.GridOf | SunJar/CirclePackingAlgorithm.swift:139-151 | the lattice starts at the safe rectangle's corner with pitch `2.2 r`; for positive spacing `cols` is the number of whole pitches that fit in the width (`cols * spacing <= width < (cols + 1) * spacing`), `rows` likewise for the height; for negative spacing both counts are non-positive |
| GridSearch.VisitedIsRing | SunJar/CirclePackingAlgorithm.swift:157-162 | ring `k` of the loop nest, with its perimeter filter, tests exactly the cells at Chebyshev distance `k` from the centre cell |
| GridSearch.SearchCols | SunJar/CirclePackingAlgorithm.swift:159-183 | the column loop returns the first acceptable perimeter cell of its row, and None only when none is acceptable |
| GridSearch.SearchRows | SunJar/CirclePackingAlgorithm.swift:158-185 | the row loop returns the row-major first acceptable cell of the ring, and None only when none is acceptable |
| GridSearch.SearchRings | SunJar/CirclePackingAlgorithm.swift:157-186 | the ring loop returns the first acceptable cell in (ring, row, column) order, and None only when no cell of the grid is acceptable |
| GridSearch.FindGridPosition | SunJar/CirclePackingAlgorithm.swift:135-189 | traps exactly for zero spacing, a negative `max(cols, rows)`, or one empty side; a returned point is acceptable and is the first acceptable lattice point in search order; nil means no lattice point is acceptable |
| GridSearch.FirstCellIsNearest | SunJar/CirclePackingAlgorithm.swift:153-162 | the returned cell is a Chebyshev-nearest acceptable cell to the centre |
| GridSearch.GridTrapsWhenOneSideEmpty | SunJar/CirclePackingAlgorithm.swift:150-159 | for a positive radius, the fallback traps exactly when one lattice count is zero and the other is not |
| GridSearch.AppContainerGrid | SunJar/ViewController.swift:19 | the app's 290 x 345 container with corner radius 85 and radius 20 gives a 5 x 6 lattice at pitch 44 from (27, 27), which does not trap |
| CirclePacking.RandomPhase | SunJar/CirclePackingAlgorithm.swift:31-60 | the random loop accepts the first acceptable candidate among attempts below 1000, and gives up only when all of them are rejected |
| CirclePacking.PlaceCircle | SunJar/CirclePackingAlgorithm.swift:30-72 | one outer iteration places an acceptable point; it traps only through the fallback, after all 1000 random candidates were rejected; it places nothing only when every random candidate and every lattice cell is rejected |
| CirclePacking.PlaceCirclePrefersDraws | SunJar/CirclePackingAlgorithm.swift:34-66 | when some of the 1000 draws is acceptable the circle goes to the first acceptable draw; when none is, the iteration's outcome is exactly the lattice fallback's |
| CirclePacking.PackCircles | SunJar/CirclePackingAlgorithm.swift:12-76 | at most `count` centres, all valid and pairwise at least `2.2 * radius` apart; a trap only when the fallback traps |
| CirclePacking.PackIsAppendOnly | SunJar/CirclePackingAlgorithm.swift:30-72 | earlier iterations' output is a prefix of later output, and each iteration adds at most one centre |
| CirclePacking.PackStep | SunJar/CirclePackingAlgorithm.swift:30-72 | iteration `n` sees exactly the centres placed by the first `n` iterations and appends what it places |
| CirclePacking.ShortfallMeansExhausted | SunJar/CirclePackingAlgorithm.swift:62-72 | a sphere is left out only when all 1000 random candidates and all lattice cells were rejected |
| CirclePacking.PackedPointsInSafeRect | SunJar/CirclePackingAlgorithm.swift:20-28 | when the container fits the margins, every centre lies in `[inset + margin, size - (inset + margin)]` on both axes |
| CirclePacking.AppContainerNeverTraps | SunJar/BottleScene.swift:107-112 | packing in the app's container always finishes |
| Spheres.Repeat | SunJar/BottleScene.swift:150 | `Array(repeating:count:)` holds `n` copies of its kind and nothing else |
| Spheres.UnshuffledTypes | SunJar/BottleScene.swift:147-151 | the list built before shuffling holds exactly 7, 5 and 5 spheres of the three kinds, 17 in all |
| Spheres.Swap | SunJar/BottleScene.swift:152 | a swap exchanges the two entries, keeps the others and keeps the multiset |
| Spheres.Shuffle | SunJar/BottleScene.swift:152 | the shuffle is a permutation and never touches positions already fixed |
| Spheres.GenerateShuffledTypes | SunJar/BottleScene.swift:147-153 | the shuffled list has 17 entries with exactly `SphereType.count` of each kind |
| Spheres.ShuffleReachesEveryArrangement | SunJar/BottleScene.swift:152 | every rearrangement of the list is the shuffle's result for some draws |
| Spheres.GenerateReachesEveryArrangement | SunJar/UD/BottleView.swift:150-156 | every list with 7, 5 and 5 of the kinds is a possible result of `generateShuffledTypes` |
| Spheres.Enumerate | SunJar/BottleScene.swift:115-120 | the loop over the first `n` types makes at most `n` spheres and at most one per position, exactly `n` when every index has a position and loads, each of a listed kind at a listed position |
| Spheres.EnumerateIsPlaced | SunJar/UD/BottleView.swift:114-147 | the creation loop makes, in order, one sphere per index that has a position and loads, with that index's kind and position |
| Spheres.PlacedIsComplete | SunJar/UD/BottleView.swift:114-147 | every index that has a position and whose asset loads gets a sphere |
| Spheres.SceneSpheres | SunJar/BottleScene.swift:114-120 | the scene makes `min(|types|, |positions|)` spheres, the `k`-th of kind `types[k]` at `positions[k]` |
| Spheres.ViewSpheres | SunJar/UD/BottleView.swift:114-147 | the view makes at most that many spheres: those whose asset loads, in index order |
| Spheres.ViewMatchesSceneWhenAllLoad | SunJar/UD/BottleView.swift:117-146 | when every asset loads, the view creates exactly the scene's spheres |
| Spheres.SceneSpheresWellPlaced | SunJar/BottleScene.swift:114-120 | every created sphere starts at a valid centre, pairwise separated |
| Spheres.AppSceneSpheres | SunJar/BottleScene.swift:102-121 | in the app container the scene creates one well-placed sphere per packed position, at most 17 |
| Haptics.Normalize | SunJar/BottleScene.swift:52 | `min(max(speed / ref, 0), 1)` lies in [0, 1], is 1 exactly from the reference speed up, 0 exactly for non-positive speed, and linear in between |
| Haptics.NormalizeMonotone | SunJar/BottleScene.swift:69 | normalised intensity never decreases with speed |
| Haptics.NormalizePassesDeadZone | SunJar/BottleScene.swift:331-332 | a normalised intensity passes the `> 0.1` dead zone exactly when speed exceeds a tenth of the reference |
| Haptics.BoundaryIntensity | SunJar/BottleScene.swift:52 | the boundary intensity is `speed / 500` clamped to [0, 1]: 1 exactly from 500 up, 0 exactly at rest, and past the dead zone exactly above speed 50 |
| Haptics.SphereIntensity | SunJar/BottleScene.swift:69 | the sphere intensity is `relativeSpeed / 400` clamped to [0, 1]: 1 exactly from 400 up, 0 exactly at rest, and past the dead zone exactly above 40 |
| Haptics.MagnitudeUnique | SunJar/BottleScene.swift:64-67 | a velocity has one non-negative magnitude |
| Haptics.BoundaryIntensityBySquares | SunJar/BottleScene.swift:47-52 | boundary intensity is 0 at rest, 1 exactly when the squared speed is at least 500², and past the dead zone exactly above 50² |
| Haptics.SphereIntensitySymmetric | SunJar/BottleScene.swift:62-69 | sphere–sphere intensity does not depend on body order, is 1 exactly at relative speed 400 or more, and passes the dead zone exactly above 40 |
| BottleScene.Classify | SunJar/BottleScene.swift:43-57 | a contact is a boundary hit exactly when the OR of the masks is 3, and sphere–sphere exactly when it is 1 |
| BottleScene.ClassifyBodies | SunJar/BottleScene.swift:15-18 | classification is order-independent; sphere+boundary is a hit, sphere+sphere a sphere contact, boundary+boundary neither |
| BottleScene.BallSpeed | SunJar/BottleScene.swift:47-50 | the ball is body A when A's mask is the sphere category and body B otherwise; for a boundary hit between masks 1 and 2 the speed is the sphere body's |
| BottleScene.CreateHapticEngine | SunJar/BottleScene.swift:271-292 | the engine exists unless construction throws, and runs exactly when `start()` succeeds |
| BottleScene.RestartHapticEngine | SunJar/BottleScene.swift:314-323 | a restart replaces the engine with a freshly created one and counts one restart |
| BottleScene.StopHapticEngine | SunJar/BottleScene.swift:325-328 | stopping keeps the engine but not running, and touches nothing else |
| BottleScene.StopIdempotent | SunJar/BottleScene.swift:325-328 | stopping twice is stopping once |
| BottleScene.AdjustedIntensity | SunJar/BottleScene.swift:352-353 | the pattern intensity lies in [0.1, 1] and is the input when that already lies there |
| BottleScene.PlayCollisionHaptic | SunJar/BottleScene.swift:330-350 | no engine or intensity ≤ 0.1 does nothing; a pulse plays exactly on a running engine with successful playback, at the clamped intensity; otherwise exactly one restart |
| BottleScene.DidBegin | SunJar/BottleScene.swift:42-72 | unclassified contacts do nothing; boundary hits leave `lastHapticTime`; a sphere contact inside 0.1 s does nothing, and otherwise moves `lastHapticTime` to now; a pulse plays exactly when the engine is running, playback succeeds, and either a boundary hit's intensity or (outside the 0.1 s window) a sphere contact's intensity passes the dead zone; pulses lie in (0.1, 1]; the engine is restarted exactly once when a contact that reaches `playCollisionHaptic` with an engine and an intensity past the dead zone plays no pulse, and is otherwise left as it was |
| BottleScene.BoundaryHitIgnoresDebounce | SunJar/BottleScene.swift:46-54 | boundary hits neither read nor write `lastHapticTime` |
| BottleScene.PulseCarriesClassifiedIntensity | SunJar/BottleScene.swift:52-70 | a played pulse carries exactly the boundary or sphere intensity of its contact |
| BottleScene.DidBeginSymmetric | SunJar/BottleScene.swift:42-72 | for the scene's own masks, swapping body A and B changes nothing |
| BottleScene.Run | SunJar/BottleScene.swift:42-72 | a run produces one step per contact, each the delegate applied to the state the previous contact left |
| BottleScene.Openings | SunJar/BottleScene.swift:58-60 | the debounce opens at most once per contact, and each opening is the media time of a sphere–sphere contact of the run |
| BottleScene.SpherePulsesAreOpenings | SunJar/BottleScene.swift:57-70 | the media time of every sphere–sphere pulse of a run is one of the recorded window openings |
| BottleScene.LastNonDecreasing | SunJar/BottleScene.swift:58-60 | along a run, `lastHapticTime` never moves backwards |
| BottleScene.SpherePulsesSpaced | SunJar/BottleScene.swift:57-70 | any two sphere–sphere contacts of a run that both play a pulse are more than 0.1 s apart in media time |
| BottleScene.OpeningsAreSpaced | SunJar/BottleScene.swift:58-60 | successive debounce openings are more than 0.1 s apart, the first more than 0.1 s after the initial time |
| BottleScene.AtMostOneRestartPerEvent | SunJar/BottleScene.swift:335-349 | a run of `n` contacts restarts the engine at most `n` times |
| BottleScene.DebounceScenario | SunJar/BottleScene.swift:57-70 | at relative speed 200 the pulse is 0.5; a repeat after 0.05 s is dropped and after 0.15 s played |
| BottleScene.DeadZoneScenario | SunJar/BottleScene.swift:331-332 | intensity 0.1 is dropped and 0.11 played as 0.11 |
| BottleScene.StoppedEngineScenario | SunJar/BottleScene.swift:335-339 | a qualifying event on a stopped engine is dropped after exactly one restart |
| BottleView.LinearInterpolation | SunJar/UD/BottleView.swift:339-341 | interpolation hits `min` at 0 and `max` at 1 and stays in range for alpha in [0, 1] |
| BottleView.InterpolationMonotone | SunJar/UD/BottleView.swift:339-341 | interpolation over an ordered range is monotone in alpha |
| BottleView.PlayCollisionHaptic | SunJar/UD/BottleView.swift:312-337 | without a player or at intensity ≤ 0.1 nothing happens; a pulse plays exactly when the (optional) engine start and the player succeed, with remapped intensity and volume; nothing restarts |
| BottleView.PulseRanges | SunJar/UD/BottleView.swift:320-328 | a played pulse has intensity in (0.37, 1] and volume in (0.14, 0.5]; the range ends correspond to intensities 0 and 1 |
| BottleView.PulseMonotone | SunJar/UD/BottleView.swift:320-328 | both pulse parameters grow with contact intensity |
| BottleView.ItemContact | SunJar/UD/BottleView.swift:160-174 | a contact inside 0.1 s does nothing; otherwise `lastHapticTime` moves to now even when the cast fails; a pulse plays exactly when the window is open, both casts succeed, a player exists, the sphere intensity passes the dead zone and the engine (if any) and player start; it carries the sphere intensity; the player and the engine's presence are kept |
| BottleView.BoundaryContact | SunJar/UD/BottleView.swift:176-185 | a failed cast does nothing; `lastHapticTime` is never touched; a pulse plays exactly when the cast succeeds, a player exists, the boundary intensity passes the dead zone and the engine (if any) and player start; it carries the boundary intensity; the player and the engine's presence are kept |
| BottleView.CastFailureConsumesWindow | SunJar/UD/BottleView.swift:161-165 | a contact whose cast fails still uses the debounce window, so a proper contact right after it is dropped |
| BottleView.BoundaryContactIgnoresDebounce | SunJar/UD/BottleView.swift:176-185 | boundary contacts do not depend on `lastHapticTime` |
| Motion.SceneGravity | SunJar/BottleScene.swift:236-242 | the scene's gravity is parallel to the device's, with the same signs on both axes, and 15 times as long |
| Motion.ViewGravity | SunJar/UD/BottleView.swift:224-230 | the view's gravity is the device's mirrored in y, with the same x sign and the opposite y sign, and 3.5 times as long |
| Motion.UprightPullsDown | SunJar/BottleScene.swift:231-243 | an upright device (gravity (0, −1)) pulls the spheres to the bottom of the screen in both frames: (0, −15) in the scene, (0, 3.5) in the view |
| Motion.FramesAgree | SunJar/UD/BottleView.swift:219-231 | the view's gravity is the scene's with y mirrored, scaled by 3.5/15 |
| Motion.TiltDirection | SunJar/UD/BottleView.swift:219-231 | more tilt gives more pull, in the same screen direction in both frames |

## Left out

- Floating point is not modelled. `CGFloat` and `Float` are exact reals,
  so the `Float(speed)` narrowing and the rounding of `sqrt`, `pow` and
  division are not modelled.
- `sqrt` is not computed. Speeds and relative speeds are real inputs, and
  `IsMagnitude` ties them to the velocities they come from.
- Haptics.Normalize: reals have no NaN or infinity. In the source an
  infinite speed clamps to 1, which the model's largest speeds match. A
  NaN speed is not clamped: Swift's `max(NaN, 0)` and `min(NaN, 1)` both
  return NaN. That NaN then fails every `intensity > 0.1` test
  (SunJar/BottleScene.swift:331-332, SunJar/UD/BottleView.swift:313), so
  no pulse plays. The model has no such input.
- BottleScene.PlayCollisionHaptic: `try! CHHapticPattern(events:parameters:)`
  (SunJar/BottleScene.swift:364) would trap if the pattern were rejected.
  The model takes the pattern as always built. Only `makePlayer` and
  `start` failures are modelled (`Playback`).
- GridSearch.GridOf: `Int(x)` also traps on a finite quotient beyond the
  64-bit range. The model truncates without bound and only traps on zero
  spacing, where the quotient is infinite or NaN.
- CirclePacking.PackCircles: a negative `count` traps at `0..<count`.
  The model takes `count` as a `nat`, so that trap is not represented.
- `CGFloat.random(in:)` and `shuffled()` are the oracles `draw` and
  `pick`. Their distributions are not modelled.
- The shuffle is the standard library's Fisher–Yates: at each position,
  swap with a drawn later position. Its source is not part of this model.
- Spheres.Shuffle: an oracle offset past the remaining range is read as
  the last position. The random source itself never draws such an
  offset, so no reachable arrangement changes.
- The physics simulation is not modelled: integration, restitution,
  friction, damping, the initial random velocities and the boundary
  bodies. Contacts are inputs.
- The engine lifecycle around the haptic calls is not modelled:
  - the `resetHandler` and `stoppedHandler` restarts;
  - `didBecomeActive` and `willResignActive` observers (the scene's stop
    is modelled as `BottleScene.StopHapticEngine`);
  - `cleanupHaptics`;
  - the hardware capability check (a missing engine stands for it);
  - the audio-session setup.
- The AHAP player setup of the view (`initializeCollisionHaptics`) is
  the flag `hasPlayer`. Pattern contents and sharpness are not modelled.
- `CoreMotion` delivery (update interval, errors, pausing) is not
  modelled. `Motion` models only the mapping of one gravity sample.
- Node and view set-up (images, sizes, masks other than the two
  categories, Rive view models) and `RiveFileCache` are not part of this
  model. Asset loading is the oracle `loads`.
- `BottleView.swift` (the top-level SpriteKit host) is not part of this
  model. Of `ViewController.swift`, only the 290 x 345 container size is
  used.
- CirclePacking.AppContainerNeverTraps: it shows only that the packing
  finishes, not that all seventeen spheres are placed. Draws that land
  badly can block every one of the 30 lattice cells before the last
  spheres are placed, so "always seventeen" holds only with high
  probability, and the model does not state it.
- BottleScene.DidBeginSymmetric: it is stated only for masks 1 and 2.
  With other masks whose OR is 3 (for example 3 and 2), the ball picked
  for a boundary hit depends on which body is `A`.

=== FILE: bottle_scene.dfy ===
/** The SpriteKit variant (`BottleScene`): `didBegin` classifies a contact
    by the OR of the two category masks, debounces sphere–sphere contacts,
    and `playCollisionHaptic` plays through a `CHHapticEngine` that it
    restarts once, dropping the event, when the engine is not running or
    playback throws. */
module BottleScene {
  import opened Prelude
  import opened Haptics

  const SphereCategory: bv32 := 1
  const BoundaryCategory: bv32 := 2

  datatype ContactKind = BoundaryHit | SphereSphere | Unclassified

  /** The branch `didBegin` takes for a contact between bodies of category
      masks `maskA` and `maskB`. */
  function Classify(maskA: bv32, maskB: bv32): (k: ContactKind)
    ensures k == BoundaryHit <==> maskA | maskB == SphereCategory | BoundaryCategory
    ensures k == SphereSphere <==> maskA | maskB == SphereCategory | SphereCategory
  {
    var collision := maskA | maskB;
    if collision == SphereCategory | BoundaryCategory then BoundaryHit
    else if collision == SphereCategory | SphereCategory then SphereSphere
    else Unclassified
  }

  /** Classification does not depend on which body SpriteKit reports as `A`,
      and the scene's two kinds of body classify as intended: a sphere and
      the boundary make a boundary hit, two spheres a sphere–sphere contact,
      and nothing else makes either. */
  lemma ClassifyBodies(maskA: bv32, maskB: bv32)
    ensures Classify(maskA, maskB) == Classify(maskB, maskA)
    ensures Classify(SphereCategory, BoundaryCategory) == BoundaryHit
    ensures Classify(BoundaryCategory, SphereCategory) == BoundaryHit
    ensures Classify(SphereCategory, SphereCategory) == SphereSphere
    ensures Classify(BoundaryCategory, BoundaryCategory) == Unclassified
    ensures Classify(maskA, maskB) == SphereSphere ==> maskA <= 1 && maskB <= 1
    ensures Classify(maskA, maskB) != Unclassified ==> maskA <= 3 && maskB <= 3
  {
  }

  /** A physics body at contact time: its category mask, its velocity and the
      speed (the velocity's magnitude) the source computes from it. */
  datatype Body = Body(category: bv32, velocity: Vec, speed: real)

  /** An `SKPhysicsContact`, with the magnitude of the bodies' velocity
      difference. */
  datatype Contact = Contact(bodyA: Body, bodyB: Body, relativeSpeed: real)

  /** The speeds are the magnitudes of the velocities they come from. */
  predicate WellFormed(c: Contact) {
    && IsMagnitude(c.bodyA.velocity, c.bodyA.speed)
    && IsMagnitude(c.bodyB.velocity, c.bodyB.speed)
    && IsMagnitude(Diff(c.bodyA.velocity, c.bodyB.velocity), c.relativeSpeed)
  }

  /** The ball of a boundary hit: `A` if its mask is exactly the sphere
      category, `B` otherwise. */
  function BallSpeed(c: Contact): (speed: real)
    ensures speed == c.bodyA.speed || speed == c.bodyB.speed
    ensures c.bodyA.category == SphereCategory ==> speed == c.bodyA.speed
    ensures c.bodyA.category != SphereCategory ==> speed == c.bodyB.speed
    ensures Classify(c.bodyA.category, c.bodyB.category) == BoundaryHit
            && c.bodyA.category in {SphereCategory, BoundaryCategory}
            && c.bodyB.category in {SphereCategory, BoundaryCategory}
            ==> (c.bodyA.category == SphereCategory && speed == c.bodyA.speed)
                || (c.bodyB.category == SphereCategory && speed == c.bodyB.speed)
  {
    if c.bodyA.category == SphereCategory then c.bodyA.speed else c.bodyB.speed
  }

  /** The scene's haptic state: the time of the last sphere–sphere pulse
      attempt, the engine (`nil` when the hardware lacks haptics or creation
      threw), and how many times the engine has been restarted. */
  datatype SceneState = SceneState(lastHapticTime: real, engine: Option<Engine>, restarts: nat)

  /** How `createHapticEngine` ends: `CHHapticEngine()` throws (the engine
      stays `nil`), `start()` throws (an engine exists but is not running),
      or the engine starts. */
  datatype Creation = CreateThrows | StartThrows | Started

  /** Whether `makePlayer(with:)` and `player.start(atTime:)` both succeed. */
  datatype Playback = PlaybackOk | PlaybackThrows

  /** What the platform does for one event: how playback and, if one is
      needed, the restart turn out. */
  datatype Platform = Platform(playback: Playback, creation: Creation)

  /** The scene after an event, and the intensity of the pulse it played. */
  datatype Step = Step(state: SceneState, pulse: Option<real>)

  function CreateHapticEngine(c: Creation): (e: Option<Engine>)
    ensures e.Some? <==> c != CreateThrows
    ensures e.Some? ==> (e.value.running <==> c == Started)
  {
    match c
    case CreateThrows => None
    case StartThrows => Some(Engine(false))
    case Started => Some(Engine(true))
  }

  /** `restartHapticEngine`: drop the old engine and create a new one. */
  function RestartHapticEngine(s: SceneState, c: Creation): (t: SceneState)
    ensures t.restarts == s.restarts + 1
    ensures t.lastHapticTime == s.lastHapticTime
    ensures t.engine == CreateHapticEngine(c)
  {
    SceneState(s.lastHapticTime, CreateHapticEngine(c), s.restarts + 1)
  }

  /** `stopHapticEngine`, on `willResignActive`: the engine, if any, stops. */
  function StopHapticEngine(s: SceneState): (t: SceneState)
    ensures t.engine.Some? <==> s.engine.Some?
    ensures t.engine.Some? ==> !t.engine.value.running
    ensures t.lastHapticTime == s.lastHapticTime && t.restarts == s.restarts
  {
    match s.engine
    case None => s
    case Some(_) => s.(engine := Some(Engine(false)))
  }

  /** Stopping is idempotent. */
  lemma StopIdempotent(s: SceneState)
    ensures StopHapticEngine(StopHapticEngine(s)) == StopHapticEngine(s)
  {
  }

  /** `createHapticPattern`'s `min(max(intensity, 0.1), 1.0)`. */
  function AdjustedIntensity(intensity: real): (a: real)
    ensures DeadZone <= a <= 1.0
    ensures DeadZone <= intensity <= 1.0 ==> a == intensity
  {
    Clamp(intensity, DeadZone, 1.0)
  }

  /** `playCollisionHaptic(intensity:)`. */
  function PlayCollisionHaptic(s: SceneState, intensity: real, p: Platform): (r: Step)
    ensures s.engine.None? || intensity <= DeadZone ==> r == Step(s, None)
    ensures r.pulse.Some? <==>
              s.engine.Some? && s.engine.value.running && intensity > DeadZone && p.playback == PlaybackOk
    ensures r.pulse.Some? ==> r.state == s && r.pulse.value == AdjustedIntensity(intensity)
    ensures r.state.lastHapticTime == s.lastHapticTime
    ensures r.state.restarts == s.restarts || r.state == RestartHapticEngine(s, p.creation)
    ensures r.state.restarts == s.restarts + 1 <==> s.engine.Some? && intensity > DeadZone && r.pulse.None?
  {
    match s.engine
    case None => Step(s, None)
    case Some(engine) =>
      if !(intensity > DeadZone) then Step(s, None)
      else if !engine.running then Step(RestartHapticEngine(s, p.creation), None)
      else match p.playback
        case PlaybackThrows => Step(RestartHapticEngine(s, p.creation), None)
        case PlaybackOk => Step(s, Some(AdjustedIntensity(intensity)))
  }

  /** `didBegin(_:)` at media time `now`. */
  function DidBegin(s: SceneState, c: Contact, now: real, p: Platform): (r: Step)
    ensures Classify(c.bodyA.category, c.bodyB.category) == Unclassified ==> r == Step(s, None)
    ensures Classify(c.bodyA.category, c.bodyB.category) == BoundaryHit ==>
              r.state.lastHapticTime == s.lastHapticTime
    ensures Classify(c.bodyA.category, c.bodyB.category) == SphereSphere ==>
              if now - s.lastHapticTime > DebounceWindow then r.state.lastHapticTime == now
              else r == Step(s, None)
    ensures r.state.lastHapticTime == s.lastHapticTime ||
            (r.state.lastHapticTime == now && now - s.lastHapticTime > DebounceWindow)
    ensures r.pulse.Some? <==>
              && s.engine == Some(Engine(true)) && p.playback == PlaybackOk
              && var k := Classify(c.bodyA.category, c.bodyB.category);
                 || (k == BoundaryHit && BoundaryIntensity(BallSpeed(c)) > DeadZone)
                 || (k == SphereSphere && now - s.lastHapticTime > DebounceWindow
                     && SphereIntensity(c.relativeSpeed) > DeadZone)
    ensures r.pulse.Some? ==> DeadZone < r.pulse.value <= 1.0
    ensures r.state.restarts <= s.restarts + 1
    ensures var k := Classify(c.bodyA.category, c.bodyB.category);
            var i := if k == BoundaryHit then BoundaryIntensity(BallSpeed(c)) else SphereIntensity(c.relativeSpeed);
            var reached := (k == BoundaryHit || (k == SphereSphere && now - s.lastHapticTime > DebounceWindow))
                           && s.engine.Some? && i > DeadZone;
            (r.state.restarts == s.restarts + 1 <==> reached && r.pulse.None?)
    ensures r.state.restarts == s.restarts ==> r.state.engine == s.engine
    ensures r.state.restarts == s.restarts + 1 ==> r.state.engine == CreateHapticEngine(p.creation)
  {
    match Classify(c.bodyA.category, c.bodyB.category)
    case BoundaryHit => PlayCollisionHaptic(s, BoundaryIntensity(BallSpeed(c)), p)
    case SphereSphere =>
      if !(now - s.lastHapticTime > DebounceWindow) then Step(s, None)
      else PlayCollisionHaptic(s.(lastHapticTime := now), SphereIntensity(c.relativeSpeed), p)
    case Unclassified => Step(s, None)
  }

  /** A boundary hit neither reads nor writes `lastHapticTime`: changing it
      beforehand changes nothing else about the outcome. */
  lemma BoundaryHitIgnoresDebounce(s: SceneState, t: real, c: Contact, now: real, p: Platform)
    requires Classify(c.bodyA.category, c.bodyB.category) == BoundaryHit
    ensures var r1, r2 := DidBegin(s, c, now, p), DidBegin(s.(lastHapticTime := t), c, now, p);
            r2.pulse == r1.pulse && r2.state == r1.state.(lastHapticTime := t)
  {
  }

  /** Whatever passes the dead zone is played at the classified intensity:
      the pattern's clamp into [0.1, 1] is the identity there. */
  lemma PulseCarriesClassifiedIntensity(s: SceneState, c: Contact, now: real, p: Platform)
    requires DidBegin(s, c, now, p).pulse.Some?
    ensures var k := Classify(c.bodyA.category, c.bodyB.category);
            (k == BoundaryHit && DidBegin(s, c, now, p).pulse.value == BoundaryIntensity(BallSpeed(c))) ||
            (k == SphereSphere && DidBegin(s, c, now, p).pulse.value == SphereIntensity(c.relativeSpeed))
  {
  }

  /** Swapping which body SpriteKit reports as `A` changes nothing, for the
      scene's own category masks: the relative speed is the same either way
      round, and a boundary hit still picks the sphere. */
  lemma DidBeginSymmetric(s: SceneState, c: Contact, reversed: real, now: real, p: Platform)
    requires WellFormed(c) && WellFormed(Contact(c.bodyB, c.bodyA, reversed))
    requires c.bodyA.category in {SphereCategory, BoundaryCategory}
    requires c.bodyB.category in {SphereCategory, BoundaryCategory}
    ensures DidBegin(s, c, now, p) == DidBegin(s, Contact(c.bodyB, c.bodyA, reversed), now, p)
  {
    ClassifyBodies(c.bodyA.category, c.bodyB.category);
    SphereIntensitySymmetric(c.bodyA.velocity, c.bodyB.velocity, c.relativeSpeed, reversed);
  }

  // ---------------------------------------------------------------------
  // Runs of contacts: the debounce spaces sphere–sphere pulses.
  // ---------------------------------------------------------------------

  /** One delivered contact, with its media time and what the platform does. */
  datatype Event = Event(contact: Contact, time: real, platform: Platform)

  /** The steps a run of contacts produces, one per event. */
  function Run(s: SceneState, events: seq<Event>): (steps: seq<Step>)
    decreases |events|
    ensures |steps| == |events|
    ensures |events| > 0 ==> steps[0] == DidBegin(s, events[0].contact, events[0].time, events[0].platform)
    ensures forall k :: 0 < k < |events| ==>
              steps[k] == DidBegin(steps[k - 1].state, events[k].contact, events[k].time, events[k].platform)
  {
    if |events| == 0 then []
    else
      var st := DidBegin(s, events[0].contact, events[0].time, events[0].platform);
      var rest := Run(st.state, events[1..]);
      assert forall k :: 1 < k < |events| ==> events[k] == events[1..][k - 1] && ([st] + rest)[k - 1] == rest[k - 2];
      [st] + rest
  }

  /** The times at which a run moved `lastHapticTime`: the sphere–sphere
      contacts that got through the debounce window. */
  function Openings(s: SceneState, events: seq<Event>): (ts: seq<real>)
    decreases |events|
    ensures |ts| <= |events|
    ensures forall m :: 0 <= m < |ts| ==> OpenedBy(events, ts[m])
  {
    if |events| == 0 then []
    else
      var st := DidBegin(s, events[0].contact, events[0].time, events[0].platform);
      var head := if st.state.lastHapticTime != s.lastHapticTime then [st.state.lastHapticTime] else [];
      var rest := Openings(st.state, events[1..]);
      assert head != [] ==> OpenedBy(events, head[0]) by {
        if head != [] { assert SphereContactAt(events, 0); }
      }
      assert forall t :: OpenedBy(events[1..], t) ==> OpenedBy(events, t) by {
        forall t | OpenedBy(events[1..], t) ensures OpenedBy(events, t) {
          var k :| 0 <= k < |events[1..]| && SphereContactAt(events[1..], k) && events[1..][k].time == t;
          assert SphereContactAt(events, k + 1);
        }
      }
      head + rest
  }

  /** Event `k` of a run is a sphere–sphere contact. */
  predicate SphereContactAt(events: seq<Event>, k: int)
    requires 0 <= k < |events|
  {
    Classify(events[k].contact.bodyA.category, events[k].contact.bodyB.category) == SphereSphere
  }

  /** `t` is the media time of some sphere–sphere contact of the run. */
  ghost predicate OpenedBy(events: seq<Event>, t: real) {
    exists k :: 0 <= k < |events| && SphereContactAt(events, k) && events[k].time == t
  }

  /** Every sphere–sphere pulse of a run happens at a window opening, so
      the spacing of openings bounds the spacing of those pulses. */
  lemma {:induction false} SpherePulsesAreOpenings(s: SceneState, events: seq<Event>)
    decreases |events|
    ensures forall k :: 0 <= k < |events| && SphereContactAt(events, k) && Run(s, events)[k].pulse.Some? ==>
              events[k].time in Openings(s, events)
  {
    if |events| > 0 {
      var st := DidBegin(s, events[0].contact, events[0].time, events[0].platform);
      var rest := Openings(st.state, events[1..]);
      SpherePulsesAreOpenings(st.state, events[1..]);
      var head := if st.state.lastHapticTime != s.lastHapticTime then [st.state.lastHapticTime] else [];
      assert Openings(s, events) == head + rest;
      forall k | 0 <= k < |events| && SphereContactAt(events, k) && Run(s, events)[k].pulse.Some?
        ensures events[k].time in Openings(s, events)
      {
        if k == 0 {
          assert head == [events[0].time];
        } else {
          assert Run(s, events)[k] == Run(st.state, events[1..])[k - 1];
          assert events[1..][k - 1] == events[k];
          assert SphereContactAt(events[1..], k - 1);
          assert events[k].time in rest;
        }
      }
    }
  }

  /** `lastHapticTime` never moves backwards along a run. */
  lemma {:induction false} LastNonDecreasing(s: SceneState, events: seq<Event>, k: nat, m: nat)
    requires k <= m < |events|
    decreases m - k
    ensures Run(s, events)[k].state.lastHapticTime <= Run(s, events)[m].state.lastHapticTime
  {
    if k < m {
      LastNonDecreasing(s, events, k, m - 1);
      var steps := Run(s, events);
      assert steps[m] == DidBegin(steps[m - 1].state, events[m].contact, events[m].time, events[m].platform);
    }
  }

  /** Two sphere–sphere contacts of a run that both play a pulse are more
      than 0.1 s apart in media time. */
  lemma SpherePulsesSpaced(s: SceneState, events: seq<Event>, k: nat, l: nat)
    requires k < l < |events|
    requires SphereContactAt(events, k) && Run(s, events)[k].pulse.Some?
    requires SphereContactAt(events, l) && Run(s, events)[l].pulse.Some?
    ensures events[l].time - events[k].time > DebounceWindow
  {
    var steps := Run(s, events);
    assert steps[l] == DidBegin(steps[l - 1].state, events[l].contact, events[l].time, events[l].platform);
    LastNonDecreasing(s, events, k, l - 1);
    if k == 0 {
      assert steps[0] == DidBegin(s, events[0].contact, events[0].time, events[0].platform);
    } else {
      assert steps[k] == DidBegin(steps[k - 1].state, events[k].contact, events[k].time, events[k].platform);
    }
  }

  /** Each window opening is more than 0.1 s after the previous one (the
      first, after the initial `lastHapticTime`), whatever order the media
      times arrive in. */
  lemma {:induction false} OpeningsAreSpaced(s: SceneState, events: seq<Event>)
    decreases |events|
    ensures var ts := Openings(s, events);
            (|ts| > 0 ==> ts[0] - s.lastHapticTime > DebounceWindow) &&
            forall k :: 0 <= k < |ts| - 1 ==> ts[k + 1] - ts[k] > DebounceWindow
  {
    if |events| > 0 {
      var st := DidBegin(s, events[0].contact, events[0].time, events[0].platform);
      OpeningsAreSpaced(st.state, events[1..]);
      var rest := Openings(st.state, events[1..]);
      if st.state.lastHapticTime != s.lastHapticTime {
        assert Openings(s, events) == [st.state.lastHapticTime] + rest;
      } else {
        assert Openings(s, events) == rest;
      }
    }
  }

  /** A run restarts the engine at most once per event: there is no retry. */
  lemma {:induction false} AtMostOneRestartPerEvent(s: SceneState, events: seq<Event>)
    decreases |events|
    ensures |events| > 0 ==> Run(s, events)[|events| - 1].state.restarts <= s.restarts + |events|
  {
    if |events| > 1 {
      var st := DidBegin(s, events[0].contact, events[0].time, events[0].platform);
      AtMostOneRestartPerEvent(st.state, events[1..]);
      assert Run(s, events)[|events| - 1] == Run(st.state, events[1..])[|events| - 2];
    }
  }

  // ---------------------------------------------------------------------
  // Worked scenarios.
  // ---------------------------------------------------------------------

  /** Two spheres meeting at relative speed 200 (intensity 0.5) on a running
      engine: a second contact 0.05 s after the first is dropped, one 0.15 s
      after is played. */
  lemma DebounceScenario(s: SceneState, c: Contact, t: real, p: Platform)
    requires c.bodyA.category == SphereCategory && c.bodyB.category == SphereCategory
    requires c.relativeSpeed == 200.0
    requires s.engine == Some(Engine(true)) && p.playback == PlaybackOk
    requires t - s.lastHapticTime > DebounceWindow
    ensures var first := DidBegin(s, c, t, p);
            first.pulse == Some(0.5) &&
            DidBegin(first.state, c, t + 0.05, p).pulse.None? &&
            DidBegin(first.state, c, t + 0.15, p).pulse == Some(0.5)
  {
  }

  /** An intensity of exactly 0.1 is dropped; 0.11 is played. */
  lemma DeadZoneScenario(s: SceneState, p: Platform)
    requires s.engine == Some(Engine(true)) && p.playback == PlaybackOk
    ensures PlayCollisionHaptic(s, 0.1, p) == Step(s, None)
    ensures PlayCollisionHaptic(s, 0.11, p) == Step(s, Some(0.11))
  {
  }

  /** A qualifying event on a stopped engine: exactly one restart, the event
      is dropped, and the engine ends up as the restart leaves it. */
  lemma StoppedEngineScenario(s: SceneState, intensity: real, p: Platform)
    requires s.engine == Some(Engine(false)) && intensity > DeadZone
    ensures var r := PlayCollisionHaptic(s, intensity, p);
            r.pulse.None? && r.state.restarts == s.restarts + 1 &&
            r.state.engine == CreateHapticEngine(p.creation)
  {
  }
}

=== FILE: bottle_view.dfy ===
/** The UIDynamics variant (`UD/BottleView`): the item–item delegate
    debounces every contact before it even checks the items are views, the
    boundary delegate does not debounce, and `playCollisionHaptic` drives a
    pre-built pattern player whose intensity and volume are remapped by
    linear interpolation; a playback failure is swallowed, with no restart
    and no retry. */
module BottleView {
  import opened Prelude
  import opened Haptics

  // Output ranges of the two dynamic parameters.
  const MinHapticIntensity: real := 0.3
  const MaxHapticIntensity: real := 1.0
  const MinVolume: real := 0.1
  const MaxVolume: real := 0.5

  lemma ProductNonNegative(a: real, b: real)
    requires 0.0 <= a && 0.0 <= b
    ensures 0.0 <= a * b
  {
  }

  /** `linearInterpolation(alpha:min:max:)`: `min + alpha * (max - min)`. */
  function LinearInterpolation(alpha: real, lo: real, hi: real): (v: real)
    ensures alpha == 0.0 ==> v == lo
    ensures alpha == 1.0 ==> v == hi
    ensures 0.0 <= alpha <= 1.0 && lo <= hi ==> lo <= v <= hi
  {
    assert 0.0 <= alpha <= 1.0 && lo <= hi ==> 0.0 <= alpha * (hi - lo) <= hi - lo by {
      if 0.0 <= alpha <= 1.0 && lo <= hi {
        ProductNonNegative(alpha, hi - lo);
        ProductNonNegative(1.0 - alpha, hi - lo);
      }
    }
    lo + alpha * (hi - lo)
  }

  /** Interpolation over an ordered range is monotone in `alpha`. */
  lemma InterpolationMonotone(a1: real, a2: real, lo: real, hi: real)
    requires a1 <= a2 && lo <= hi
    ensures LinearInterpolation(a1, lo, hi) <= LinearInterpolation(a2, lo, hi)
  {
    ProductNonNegative(a2 - a1, hi - lo);
  }

  /** A played pulse: the `hapticIntensityControl` and `audioVolumeControl`
      values sent to the player. */
  datatype Pulse = Pulse(intensity: real, volume: real)

  /** The view's haptic state: the time of the last item–item contact that
      got through the debounce, the engine (if created) and whether the
      collision pattern player was created. */
  datatype ViewState = ViewState(lastHapticTime: real, engine: Option<Engine>, hasPlayer: bool)

  /** What the platform does for one event: whether `hapticEngine.start()`
      succeeds, and whether `sendParameters` and `player.start` both do. */
  datatype Platform = Platform(engineStarts: bool, playerPlays: bool)

  datatype Step = Step(state: ViewState, pulse: Option<Pulse>)

  /** The pulse for an intensity `alpha`. */
  function PulseFor(alpha: real): Pulse {
    Pulse(LinearInterpolation(alpha, MinHapticIntensity, MaxHapticIntensity),
          LinearInterpolation(alpha, MinVolume, MaxVolume))
  }

  /** `playCollisionHaptic(intensity:)`. `try hapticEngine?.start()` does
      nothing when there is no engine; any throw ends the call silently. */
  function PlayCollisionHaptic(s: ViewState, alpha: real, p: Platform): (r: Step)
    ensures !s.hasPlayer || alpha <= DeadZone ==> r == Step(s, None)
    ensures r.pulse.Some? <==>
              s.hasPlayer && alpha > DeadZone && (s.engine.None? || p.engineStarts) && p.playerPlays
    ensures r.pulse.Some? ==> r.pulse.value == PulseFor(alpha)
    ensures r.state.lastHapticTime == s.lastHapticTime && r.state.hasPlayer == s.hasPlayer
    ensures r.state.engine.Some? <==> s.engine.Some?
    ensures r.pulse.None? && s.engine.Some? && !p.engineStarts ==> r.state == s
  {
    if !s.hasPlayer || !(alpha > DeadZone) then Step(s, None)
    else if s.engine.Some? && !p.engineStarts then Step(s, None)
    else
      var started := if s.engine.Some? then s.(engine := Some(Engine(true))) else s;
      if p.playerPlays then Step(started, Some(PulseFor(alpha))) else Step(started, None)
  }

  /** For an intensity from a classifier (at most 1) that passed the dead
      zone, the haptic intensity lies in (0.37, 1.0] and the volume in
      (0.14, 0.5], inside the [0.3, 1.0] and [0.1, 0.5] ranges; the range
      ends are reached exactly at 0 and 1. */
  lemma PulseRanges(alpha: real)
    requires DeadZone < alpha <= 1.0
    ensures 0.37 < PulseFor(alpha).intensity <= MaxHapticIntensity
    ensures 0.14 < PulseFor(alpha).volume <= MaxVolume
    ensures PulseFor(0.0) == Pulse(MinHapticIntensity, MinVolume)
    ensures PulseFor(1.0) == Pulse(MaxHapticIntensity, MaxVolume)
  {
    InterpolationMonotone(DeadZone, alpha, MinHapticIntensity, MaxHapticIntensity);
    InterpolationMonotone(DeadZone, alpha, MinVolume, MaxVolume);
    assert (alpha - DeadZone) * 0.7 > 0.0 && (alpha - DeadZone) * 0.4 > 0.0;
  }

  /** Both pulse parameters grow with the contact intensity. */
  lemma PulseMonotone(a1: real, a2: real)
    requires a1 <= a2
    ensures PulseFor(a1).intensity <= PulseFor(a2).intensity
    ensures PulseFor(a1).volume <= PulseFor(a2).volume
  {
    InterpolationMonotone(a1, a2, MinHapticIntensity, MaxHapticIntensity);
    InterpolationMonotone(a1, a2, MinVolume, MaxVolume);
  }

  /** `collisionBehavior(_:beganContactFor:with:at:)`: two items touched at
      media time `now`; `bothViews` is whether both `as? UIView` casts succeed
      and `relativeSpeed` is the magnitude of their velocity difference. */
  function ItemContact(s: ViewState, bothViews: bool, relativeSpeed: real, now: real, p: Platform): (r: Step)
    ensures now - s.lastHapticTime <= DebounceWindow ==> r == Step(s, None)
    ensures now - s.lastHapticTime > DebounceWindow ==> r.state.lastHapticTime == now
    ensures !bothViews ==> r.pulse.None?
    ensures r.pulse.Some? <==>
              && now - s.lastHapticTime > DebounceWindow && bothViews && s.hasPlayer
              && SphereIntensity(relativeSpeed) > DeadZone
              && (s.engine.None? || p.engineStarts) && p.playerPlays
    ensures r.pulse.Some? ==> r.pulse.value == PulseFor(SphereIntensity(relativeSpeed))
    ensures r.state.hasPlayer == s.hasPlayer && (r.state.engine.Some? <==> s.engine.Some?)
  {
    if !(now - s.lastHapticTime > DebounceWindow) then Step(s, None)
    else
      var s' := s.(lastHapticTime := now);
      if !bothViews then Step(s', None)
      else PlayCollisionHaptic(s', SphereIntensity(relativeSpeed), p)
  }

  /** `collisionBehavior(_:beganContactFor:withBoundaryIdentifier:at:)`: an
      item hit the bottle boundary at `speed`; `isView` is whether the
      `as? UIView` cast succeeds. */
  function BoundaryContact(s: ViewState, isView: bool, speed: real, p: Platform): (r: Step)
    ensures !isView ==> r == Step(s, None)
    ensures r.state.lastHapticTime == s.lastHapticTime
    ensures r.pulse.Some? <==>
              && isView && s.hasPlayer && BoundaryIntensity(speed) > DeadZone
              && (s.engine.None? || p.engineStarts) && p.playerPlays
    ensures r.pulse.Some? ==> r.pulse.value == PulseFor(BoundaryIntensity(speed))
    ensures r.state.hasPlayer == s.hasPlayer && (r.state.engine.Some? <==> s.engine.Some?)
  {
    if !isView then Step(s, None)
    else PlayCollisionHaptic(s, BoundaryIntensity(speed), p)
  }

  /** An item–item contact whose cast fails still uses up the debounce
      window: a proper contact right after it is dropped. */
  lemma CastFailureConsumesWindow(s: ViewState, rel: real, t: real, dt: real, p: Platform)
    requires t - s.lastHapticTime > DebounceWindow && 0.0 <= dt <= DebounceWindow
    ensures var first := ItemContact(s, false, rel, t, p);
            first.pulse.None? && ItemContact(first.state, true, rel, t + dt, p) == Step(first.state, None)
  {
  }

  /** Boundary contacts are not debounced: the outcome does not depend on
      `lastHapticTime`. */
  lemma BoundaryContactIgnoresDebounce(s: ViewState, t: real, isView: bool, speed: real, p: Platform)
    ensures var r1, r2 := BoundaryContact(s, isView, speed, p),
                          BoundaryContact(s.(lastHapticTime := t), isView, speed, p);
            r2.pulse == r1.pulse && r2.state == r1.state.(lastHapticTime := t)
  {
  }
}

=== FILE: circle_packing.dfy ===
/** `CirclePackingAlgorithm.packCircles`: for each requested circle, up to
    1000 random candidates inside the safe rectangle, then the lattice
    fallback; a circle neither strategy can place is left out. */
module CirclePacking {
  import opened Prelude
  import opened RoundedRect
  import opened PackingRules
  import opened GridSearch

  /** The attempt budget of the random phase, per circle. */
  const MaxAttempts: nat := 1000

  /** The random source: `draw(circle, attempt)` is the candidate
      `CGFloat.random(in:)` produces for that attempt at that circle. Every
      property below holds whatever it returns. */
  type Oracle = (nat, nat) -> Point

  /** An accepted random candidate and the attempt that produced it. */
  datatype Draw = Draw(attempt: nat, at: Point)

  /** The `while !placed && attempts < maxAttempts` loop for circle
      `circle`, from attempt `attempt` on. */
  function RandomPhase(s: Setup, ps: seq<Point>, circle: nat, draw: Oracle, attempt: nat): (r: Option<Draw>)
    decreases MaxAttempts - attempt
    ensures r.Some? ==> attempt <= r.value.attempt < MaxAttempts
    ensures r.Some? ==> r.value.at == draw(circle, r.value.attempt) && Acceptable(s, ps, r.value.at)
    ensures r.Some? ==> forall j :: attempt <= j < r.value.attempt ==> !Acceptable(s, ps, draw(circle, j))
    ensures r.None? ==> forall j :: attempt <= j < MaxAttempts ==> !Acceptable(s, ps, draw(circle, j))
  {
    if attempt >= MaxAttempts then None
    else if Acceptable(s, ps, draw(circle, attempt)) then Some(Draw(attempt, draw(circle, attempt)))
    else RandomPhase(s, ps, circle, draw, attempt + 1)
  }

  /** One iteration of the outer `for _ in 0..<count` loop: the random phase,
      then the lattice fallback when all 1000 attempts were rejected. */
  function PlaceCircle(s: Setup, ps: seq<Point>, circle: nat, draw: Oracle): (r: Outcome<Option<Point>>)
    ensures r.Done? && r.value.Some? ==> Acceptable(s, ps, r.value.value)
    ensures r.Trap? ==> GridTraps(s)
    ensures r.Trap? ==> forall j :: 0 <= j < MaxAttempts ==> !Acceptable(s, ps, draw(circle, j))
    ensures r.Done? && r.value.None? ==>
              (forall j :: 0 <= j < MaxAttempts ==> !Acceptable(s, ps, draw(circle, j))) &&
              Spacing(s) != 0.0 && NoAcceptableCell(s, ps, GridOf(s))
  {
    match RandomPhase(s, ps, circle, draw, 0)
    case Some(d) => Done(Some(d.at))
    case None => FindGridPosition(s, ps)
  }

  /** Attempt `j` is the first of the circle's draws that is acceptable. */
  predicate FirstAccepted(s: Setup, ps: seq<Point>, circle: nat, draw: Oracle, j: nat) {
    j < MaxAttempts && Acceptable(s, ps, draw(circle, j))
    && forall i :: 0 <= i < j ==> !Acceptable(s, ps, draw(circle, i))
  }

  /** The random phase comes first: when some draw is acceptable the circle
      goes to the first such draw, and the lattice is consulted, with its
      own outcome, only when all 1000 draws were rejected. */
  lemma PlaceCirclePrefersDraws(s: Setup, ps: seq<Point>, circle: nat, draw: Oracle)
    ensures (exists j :: 0 <= j < MaxAttempts && Acceptable(s, ps, draw(circle, j))) ==>
              var r := PlaceCircle(s, ps, circle, draw);
              r.Done? && r.value.Some? &&
              exists j: nat :: FirstAccepted(s, ps, circle, draw, j) && r.value.value == draw(circle, j)
    ensures (forall j :: 0 <= j < MaxAttempts ==> !Acceptable(s, ps, draw(circle, j))) ==>
              PlaceCircle(s, ps, circle, draw) == FindGridPosition(s, ps)
  {
    match RandomPhase(s, ps, circle, draw, 0)
    case Some(d) =>
      assert FirstAccepted(s, ps, circle, draw, d.attempt);
    case None =>
  }

  /** `packCircles(count:containerSize:cornerRadius:circleRadius:)`, the
      first `count` iterations of the outer loop. `count` is a `nat`:
      `0..<count` traps on a negative count. */
  function PackCircles(s: Setup, count: nat, draw: Oracle): (r: Outcome<seq<Point>>)
    ensures r.Done? ==> |r.value| <= count && WellPlaced(s, r.value)
    ensures r.Trap? ==> GridTraps(s)
  {
    if count == 0 then Done([])
    else match PackCircles(s, count - 1, draw)
      case Trap => Trap
      case Done(ps) =>
        match PlaceCircle(s, ps, count - 1, draw)
        case Trap => Trap
        case Done(None) => Done(ps)
        case Done(Some(p)) =>
          AppendAcceptable(s, ps, p);
          Done(ps + [p])
  }

  /** The placement is append-only: the first `m` iterations produce a prefix
      of what the first `n` produce, and each iteration adds at most one
      point. */
  lemma {:induction false} PackIsAppendOnly(s: Setup, m: nat, n: nat, draw: Oracle)
    requires m <= n
    requires PackCircles(s, n, draw).Done?
    ensures PackCircles(s, m, draw).Done?
    ensures PackCircles(s, m, draw).value <= PackCircles(s, n, draw).value
    ensures |PackCircles(s, n, draw).value| <= |PackCircles(s, m, draw).value| + (n - m)
  {
    if m < n {
      PackIsAppendOnly(s, m, n - 1, draw);
    }
  }

  /** The outer iteration for circle `i` sees exactly the points the first
      `i` iterations placed. */
  lemma {:induction false} PackStep(s: Setup, n: nat, draw: Oracle)
    requires PackCircles(s, n + 1, draw).Done?
    ensures PackCircles(s, n, draw).Done?
    ensures var ps := PackCircles(s, n, draw).value;
            PlaceCircle(s, ps, n, draw).Done? &&
            PackCircles(s, n + 1, draw).value ==
              match PlaceCircle(s, ps, n, draw).value
              case None => ps
              case Some(p) => ps + [p]
  {
  }

  /** A circle is left out only when every random attempt and every lattice
      cell was rejected against the points placed before it. */
  lemma {:induction false} ShortfallMeansExhausted(s: Setup, n: nat, draw: Oracle)
    requires PackCircles(s, n + 1, draw).Done?
    requires |PackCircles(s, n + 1, draw).value| == |PackCircles(s, n, draw).value|
    ensures var ps := PackCircles(s, n, draw).value;
            (forall j :: 0 <= j < MaxAttempts ==> !Acceptable(s, ps, draw(n, j))) &&
            Spacing(s) != 0.0 && NoAcceptableCell(s, ps, GridOf(s))
  {
    PackStep(s, n, draw);
  }

  /** The packing traps only through the lattice fallback: when that cannot
      trap, the packing finishes. */
  lemma NoTrapWithSoundGrid(s: Setup, count: nat, draw: Oracle)
    requires !GridTraps(s)
    ensures PackCircles(s, count, draw).Done?
  {
  }

  /** Every returned point lies in the closed safe rectangle
      `[inset + margin, size - (inset + margin)]` on both axes, with
      `margin = circleRadius + 3`. */
  lemma {:induction false} PackedPointsInSafeRect(s: Setup, count: nat, draw: Oracle, i: nat)
    requires PackCircles(s, count, draw).Done?
    requires i < |PackCircles(s, count, draw).value|
    requires s.size.width >= 2.0 * (Inset + MarginOf(s)) && s.size.height >= 2.0 * (Inset + MarginOf(s))
    ensures var p := PackCircles(s, count, draw).value[i];
            Inset + MarginOf(s) <= p.x <= s.size.width - (Inset + MarginOf(s)) &&
            Inset + MarginOf(s) <= p.y <= s.size.height - (Inset + MarginOf(s))
  {
    assert Valid(s, PackCircles(s, count, draw).value[i]);
  }

  /** In the container the app lays the scene out in (290 x 345, corner
      radius 85, circles of radius 20) the packing always finishes. */
  lemma AppContainerNeverTraps(count: nat, draw: Oracle)
    ensures PackCircles(Setup(Size(290.0, 345.0), 85.0, 20.0), count, draw).Done?
  {
    AppContainerGrid();
    NoTrapWithSoundGrid(Setup(Size(290.0, 345.0), 85.0, 20.0), count, draw);
  }
}

=== FILE: grid_search.dfy ===
/** `findGridPosition`: the fallback of `packCircles`. A lattice of pitch
    `2.2 * circleRadius` is laid over the safe rectangle and searched in
    square rings around the centre cell; inside a ring the cells are scanned
    row by row, column by column, and the first acceptable cell wins. */
module GridSearch {
  import opened Prelude
  import opened RoundedRect
  import opened PackingRules

  /** The lattice: origin at the safe rectangle's minimum corner. */
  datatype Grid = Grid(minX: real, minY: real, spacing: real, cols: int, rows: int)

  datatype Cell = Cell(row: int, col: int)

  /** `cols = Int(safeRect.width / spacing)`, `rows` likewise; the spacing
      must be non-zero, since `Int` of an infinite or NaN quotient traps. */
  function GridOf(s: Setup): (g: Grid)
    requires Spacing(s) != 0.0
    ensures Spacing(s) > 0.0 ==> g.cols >= 0 && g.rows >= 0
    ensures Spacing(s) < 0.0 ==> g.cols <= 0 && g.rows <= 0
    ensures g.minX == SafeRectOf(s).minX && g.minY == SafeRectOf(s).minY && g.spacing == Spacing(s)
    ensures Spacing(s) > 0.0 ==>
              g.cols as real * Spacing(s) <= Width(SafeRectOf(s)) < (g.cols + 1) as real * Spacing(s)
    ensures Spacing(s) > 0.0 ==>
              g.rows as real * Spacing(s) <= Height(SafeRectOf(s)) < (g.rows + 1) as real * Spacing(s)
  {
    var r := SafeRectOf(s);
    var w, h := Width(r) / Spacing(s), Height(r) / Spacing(s);
    assert Spacing(s) > 0.0 ==> w >= 0.0 && h >= 0.0;
    assert Spacing(s) < 0.0 ==> w <= 0.0 && h <= 0.0;
    assert Spacing(s) > 0.0 ==>
             Truncate(w) as real * Spacing(s) <= Width(r) < (Truncate(w) + 1) as real * Spacing(s) &&
             Truncate(h) as real * Spacing(s) <= Height(r) < (Truncate(h) + 1) as real * Spacing(s) by {
      if Spacing(s) > 0.0 {
        FloorTimes(Width(r), Spacing(s));
        FloorTimes(Height(r), Spacing(s));
      }
    }
    Grid(r.minX, r.minY, Spacing(s), Truncate(w), Truncate(h))
  }

  /** `floor(extent / d)` whole pitches fit in `extent`, one more does not. */
  lemma FloorTimes(extent: real, d: real)
    requires extent >= 0.0 && d > 0.0
    ensures Truncate(extent / d) as real * d <= extent < (Truncate(extent / d) + 1) as real * d
  {
    var q := extent / d;
    var n := Truncate(q) as real;
    var f := q - n;
    assert 0.0 <= f < 1.0;
    assert f * d >= 0.0;
    assert f * d < d;
    SplitPitch(n, f, d, extent);
  }

  /** An extent of `n + f` pitches with a fractional part `f` in `[0, 1)`
      lies between `n` and `n + 1` pitches. */
  lemma SplitPitch(n: real, f: real, d: real, extent: real)
    requires (n + f) * d == extent && 0.0 <= f * d < d
    ensures n * d <= extent < (n + 1.0) * d
  {
  }

  predicate InGrid(g: Grid, c: Cell) {
    0 <= c.row < g.rows && 0 <= c.col < g.cols
  }

  /** `(minX + col * spacing, minY + row * spacing)`. */
  function CellPoint(g: Grid, c: Cell): Point {
    Point(g.minX + c.col as real * g.spacing, g.minY + c.row as real * g.spacing)
  }

  /** `(rows / 2, cols / 2)`; the counts are never negative when searched. */
  function Centre(g: Grid): Cell { Cell(g.rows / 2, g.cols / 2) }

  /** The number of rings the outer loop `0..<max(cols, rows)` visits. */
  function RingCount(g: Grid): int { MaxInt(g.cols, g.rows) }

  /** The Chebyshev distance of a cell from the centre cell. */
  function Ring(g: Grid, c: Cell): int {
    MaxInt(AbsInt(c.row - Centre(g).row), AbsInt(c.col - Centre(g).col))
  }

  /** Row-major order inside one ring. */
  predicate RowMajorBefore(a: Cell, b: Cell) {
    a.row < b.row || (a.row == b.row && a.col < b.col)
  }

  /** The order in which the search meets cells: by ring, then row-major. */
  predicate Before(g: Grid, a: Cell, b: Cell) {
    Ring(g, a) < Ring(g, b) || (Ring(g, a) == Ring(g, b) && RowMajorBefore(a, b))
  }

  /** Both counts positive: no range of the loop nest is inverted. */
  predicate ShapeOk(g: Grid) { g.cols >= 1 && g.rows >= 1 }

  // Loop bounds of ring `k`, as written in the source.
  function RowLo(g: Grid, k: int): int { MaxInt(0, Centre(g).row - k) }
  function RowHi(g: Grid, k: int): int { MinInt(g.rows - 1, Centre(g).row + k) }
  function ColLo(g: Grid, k: int): int { MaxInt(0, Centre(g).col - k) }
  function ColHi(g: Grid, k: int): int { MinInt(g.cols - 1, Centre(g).col + k) }

  /** The "only check the spiral edge" condition of the source. */
  predicate OnPerimeter(g: Grid, k: int, c: Cell) {
    var m := Centre(g);
    k == 0 || c.row == m.row - k || c.row == m.row + k || c.col == m.col - k || c.col == m.col + k
  }

  /** The cells ring `k` of the loop nest tests. */
  predicate Visited(g: Grid, k: int, c: Cell) {
    RowLo(g, k) <= c.row <= RowHi(g, k) && ColLo(g, k) <= c.col <= ColHi(g, k) && OnPerimeter(g, k, c)
  }

  /** Ring `k` of the loop nest tests exactly the grid cells at Chebyshev
      distance `k` from the centre. */
  lemma VisitedIsRing(g: Grid, k: int, c: Cell)
    requires ShapeOk(g) && k >= 0
    ensures Visited(g, k, c) <==> InGrid(g, c) && Ring(g, c) == k
  {
  }

  /** Every grid cell lies on one of the rings the outer loop visits. */
  lemma RingBound(g: Grid, c: Cell)
    requires ShapeOk(g) && InGrid(g, c)
    ensures 0 <= Ring(g, c) < RingCount(g)
  {
  }

  /** The innermost loop: columns `col ..= ColHi(k)` of row `row`. */
  function SearchCols(s: Setup, ps: seq<Point>, g: Grid, k: int, row: int, col: int): (r: Option<Cell>)
    requires RowLo(g, k) <= row <= RowHi(g, k) && ColLo(g, k) <= col
    decreases ColHi(g, k) + 1 - col
    ensures r.Some? ==> r.value.row == row && col <= r.value.col && Visited(g, k, r.value)
                        && Acceptable(s, ps, CellPoint(g, r.value))
    ensures r.Some? ==> forall c: Cell :: c.row == row && col <= c.col < r.value.col && Visited(g, k, c)
                                    ==> !Acceptable(s, ps, CellPoint(g, c))
    ensures r.None? ==> forall c: Cell :: c.row == row && col <= c.col && Visited(g, k, c)
                                    ==> !Acceptable(s, ps, CellPoint(g, c))
  {
    if col > ColHi(g, k) then None
    else if OnPerimeter(g, k, Cell(row, col)) && Acceptable(s, ps, CellPoint(g, Cell(row, col))) then
      Some(Cell(row, col))
    else
      SearchCols(s, ps, g, k, row, col + 1)
  }

  /** The middle loop: rows `row ..= RowHi(k)` of ring `k`. */
  function SearchRows(s: Setup, ps: seq<Point>, g: Grid, k: int, row: int): (r: Option<Cell>)
    requires RowLo(g, k) <= row
    decreases RowHi(g, k) + 1 - row
    ensures r.Some? ==> row <= r.value.row && Visited(g, k, r.value) && Acceptable(s, ps, CellPoint(g, r.value))
    ensures r.Some? ==> forall c: Cell :: row <= c.row && Visited(g, k, c) && RowMajorBefore(c, r.value)
                                    ==> !Acceptable(s, ps, CellPoint(g, c))
    ensures r.None? ==> forall c: Cell :: row <= c.row && Visited(g, k, c) ==> !Acceptable(s, ps, CellPoint(g, c))
  {
    if row > RowHi(g, k) then None
    else match SearchCols(s, ps, g, k, row, ColLo(g, k))
      case Some(c) => Some(c)
      case None => SearchRows(s, ps, g, k, row + 1)
  }

  /** The outer loop: rings `k ..< max(cols, rows)`. */
  function SearchRings(s: Setup, ps: seq<Point>, g: Grid, k: int): (r: Option<Cell>)
    requires ShapeOk(g) && 0 <= k
    decreases RingCount(g) - k
    ensures r.Some? ==> InGrid(g, r.value) && k <= Ring(g, r.value) && Acceptable(s, ps, CellPoint(g, r.value))
    ensures r.Some? ==> forall c :: InGrid(g, c) && k <= Ring(g, c) && Before(g, c, r.value)
                                    ==> !Acceptable(s, ps, CellPoint(g, c))
    ensures r.None? ==> forall c :: InGrid(g, c) && k <= Ring(g, c) ==> !Acceptable(s, ps, CellPoint(g, c))
  {
    if k >= RingCount(g) then
      assert forall c :: InGrid(g, c) ==> Ring(g, c) < RingCount(g) by {
        forall c | InGrid(g, c) ensures Ring(g, c) < RingCount(g) { RingBound(g, c); }
      }
      None
    else
      var here := SearchRows(s, ps, g, k, RowLo(g, k));
      assert forall c :: Visited(g, k, c) <==> InGrid(g, c) && Ring(g, c) == k by {
        forall c ensures Visited(g, k, c) <==> InGrid(g, c) && Ring(g, c) == k { VisitedIsRing(g, k, c); }
      }
      match here
      case Some(c) => Some(c)
      case None => SearchRings(s, ps, g, k + 1)
  }

  /** The lattice cell `findGridPosition` returns: acceptable, and every cell
      the search meets before it is not. */
  ghost predicate FirstAcceptableCell(s: Setup, ps: seq<Point>, g: Grid, c: Cell) {
    && InGrid(g, c)
    && Acceptable(s, ps, CellPoint(g, c))
    && forall c' :: InGrid(g, c') && Before(g, c', c) ==> !Acceptable(s, ps, CellPoint(g, c'))
  }

  ghost predicate NoAcceptableCell(s: Setup, ps: seq<Point>, g: Grid) {
    forall c :: InGrid(g, c) ==> !Acceptable(s, ps, CellPoint(g, c))
  }

  /** When the loop nest of `findGridPosition` traps: `Int` of a non-finite
      quotient (zero spacing), an inverted `0..<max(cols, rows)`, or an
      inverted row or column range `0...-1` when exactly one count is zero. */
  predicate GridTraps(s: Setup) {
    Spacing(s) == 0.0 ||
    (var g := GridOf(s); RingCount(g) < 0 || (RingCount(g) >= 1 && !ShapeOk(g)))
  }

  /** `findGridPosition(existingPositions:containerSize:cornerRadius:circleRadius:)`. */
  function FindGridPosition(s: Setup, ps: seq<Point>): (r: Outcome<Option<Point>>)
    ensures r.Trap? <==> GridTraps(s)
    ensures r.Done? && r.value.Some? ==>
              && Spacing(s) != 0.0
              && Acceptable(s, ps, r.value.value)
              && exists c :: FirstAcceptableCell(s, ps, GridOf(s), c) && CellPoint(GridOf(s), c) == r.value.value
    ensures r.Done? && r.value.None? ==> Spacing(s) != 0.0 && NoAcceptableCell(s, ps, GridOf(s))
  {
    if Spacing(s) == 0.0 then Trap
    else
      var g := GridOf(s);
      if RingCount(g) < 0 then Trap
      else if RingCount(g) == 0 then Done(None)
      else if !ShapeOk(g) then Trap
      else match SearchRings(s, ps, g, 0)
        case Some(c) =>
          assert FirstAcceptableCell(s, ps, g, c);
          Done(Some(CellPoint(g, c)))
        case None => Done(None)
  }

  /** The returned cell is a nearest acceptable cell to the centre in the
      Chebyshev metric. */
  lemma FirstCellIsNearest(s: Setup, ps: seq<Point>, g: Grid, c: Cell, other: Cell)
    requires FirstAcceptableCell(s, ps, g, c)
    requires InGrid(g, other) && Acceptable(s, ps, CellPoint(g, other))
    ensures Ring(g, c) <= Ring(g, other)
  {
    if Ring(g, other) < Ring(g, c) {
      assert Before(g, other, c);
    }
  }

  /** For a positive radius the fallback traps exactly when one of the two
      cell counts is zero and the other is not. */
  lemma GridTrapsWhenOneSideEmpty(s: Setup)
    requires s.circleRadius > 0.0
    ensures Spacing(s) > 0.0
    ensures GridTraps(s) <==> (GridOf(s).cols == 0) != (GridOf(s).rows == 0)
  {
  }

  /** The container the app's scene is laid out in (290 x 345, corner
      radius 85, circles of radius 20) gives a 5 x 6 lattice, so the fallback
      never traps there. */
  lemma AppContainerGrid()
    ensures var s := Setup(Size(290.0, 345.0), 85.0, 20.0);
            GridOf(s) == Grid(27.0, 27.0, 44.0, 5, 6) && !GridTraps(s)
  {
    var s := Setup(Size(290.0, 345.0), 85.0, 20.0);
    var r := SafeRectOf(s);
    assert r == Rect(27.0, 27.0, 263.0, 318.0);
    assert 5.0 <= Width(r) / Spacing(s) < 6.0;
    assert 6.0 <= Height(r) / Spacing(s) < 7.0;
  }
}

=== FILE: haptics.dfy ===
/** What the SpriteKit scene and the UIDynamics view share on the way from
    a contact to a haptic pulse: the contact speed is normalised against a
    reference speed and clamped into [0, 1], anything at or below the dead
    zone is dropped, and the haptic engine is seen only through whether it
    exists and whether it runs. Speeds are the Euclidean magnitudes the
    source computes with `sqrt`; the model takes them as reals and ties
    them to velocities through their squares. */
module Haptics {
  import opened Prelude

  /** A `CHHapticEngine` reduced to whether it is running
      (`currentTime > 0`). */
  datatype Engine = Engine(running: bool)

  /** A velocity as the physics engine reports it. */
  datatype Vec = Vec(dx: real, dy: real)

  function SqNorm(v: Vec): real { v.dx * v.dx + v.dy * v.dy }

  /** `a - b`, componentwise. */
  function Diff(a: Vec, b: Vec): Vec { Vec(a.dx - b.dx, a.dy - b.dy) }

  /** `m` is what `sqrt(v.dx * v.dx + v.dy * v.dy)` returns for `v`. */
  predicate IsMagnitude(v: Vec, m: real) {
    m >= 0.0 && m * m == SqNorm(v)
  }

  /** Speed at which a boundary hit reaches full intensity. */
  const BoundaryReferenceSpeed: real := 500.0
  /** Relative speed at which a sphere–sphere contact reaches full intensity. */
  const SphereReferenceSpeed: real := 400.0
  /** Minimum time, in seconds, between two sphere–sphere contacts that may
      produce feedback; the test is strict (`> 0.1`). */
  const DebounceWindow: real := 0.1
  /** Intensities at or below this produce no feedback. */
  const DeadZone: real := 0.1

  /** `min(max(speed / reference, 0), 1)`. */
  function Normalize(speed: real, reference: real): (n: real)
    requires reference > 0.0
    ensures 0.0 <= n <= 1.0
    ensures n == 1.0 <==> speed >= reference
    ensures n == 0.0 <==> speed <= 0.0
    ensures 0.0 <= speed <= reference ==> n * reference == speed
  {
    Clamp(speed / reference, 0.0, 1.0)
  }

  /** Normalised intensity never decreases as the speed grows. */
  lemma NormalizeMonotone(s1: real, s2: real, reference: real)
    requires reference > 0.0 && s1 <= s2
    ensures Normalize(s1, reference) <= Normalize(s2, reference)
  {
    assert s1 / reference <= s2 / reference;
  }

  /** A normalised intensity passes the dead zone exactly when the speed
      exceeds a tenth of the reference speed. */
  lemma NormalizePassesDeadZone(speed: real, reference: real)
    requires reference > 0.0
    ensures Normalize(speed, reference) > DeadZone <==> speed > DeadZone * reference
  {
    var q := speed / reference;
    assert q * reference == speed;
    if q > DeadZone {
      assert (q - DeadZone) * reference > 0.0;
    } else {
      assert (DeadZone - q) * reference >= 0.0;
    }
  }

  /** Intensity of a sphere hitting the container boundary at `speed`. */
  function BoundaryIntensity(speed: real): (n: real)
    ensures 0.0 <= n <= 1.0
    ensures n == 1.0 <==> speed >= 500.0
    ensures n == 0.0 <==> speed <= 0.0
    ensures 0.0 <= speed <= 500.0 ==> n * 500.0 == speed
    ensures n > DeadZone <==> speed > 50.0
  {
    NormalizePassesDeadZone(speed, BoundaryReferenceSpeed);
    Normalize(speed, BoundaryReferenceSpeed)
  }

  /** Intensity of two spheres meeting at relative speed `relativeSpeed`. */
  function SphereIntensity(relativeSpeed: real): (n: real)
    ensures 0.0 <= n <= 1.0
    ensures n == 1.0 <==> relativeSpeed >= 400.0
    ensures n == 0.0 <==> relativeSpeed <= 0.0
    ensures 0.0 <= relativeSpeed <= 400.0 ==> n * 400.0 == relativeSpeed
    ensures n > DeadZone <==> relativeSpeed > 40.0
  {
    NormalizePassesDeadZone(relativeSpeed, SphereReferenceSpeed);
    Normalize(relativeSpeed, SphereReferenceSpeed)
  }

  lemma SquareLess(a: real, b: real)
    requires 0.0 <= a && 0.0 <= b
    ensures a < b <==> a * a < b * b
  {
    if a < b {
      assert (b - a) * a >= 0.0 && (b - a) * b > 0.0;
    } else {
      assert (a - b) * b >= 0.0 && (a - b) * a >= 0.0;
    }
  }

  /** The non-negative square root is unique. */
  lemma MagnitudeUnique(v: Vec, m1: real, m2: real)
    requires IsMagnitude(v, m1) && IsMagnitude(v, m2)
    ensures m1 == m2
  {
    SquareLess(m1, m2);
    SquareLess(m2, m1);
  }

  /** The velocity difference has the same magnitude both ways round. */
  lemma DiffSqNormSymmetric(a: Vec, b: Vec)
    ensures SqNorm(Diff(a, b)) == SqNorm(Diff(b, a))
  {
    assert (a.dx - b.dx) * (a.dx - b.dx) == (b.dx - a.dx) * (b.dx - a.dx);
    assert (a.dy - b.dy) * (a.dy - b.dy) == (b.dy - a.dy) * (b.dy - a.dy);
  }

  /** Boundary-hit intensity read off the squared velocity: zero for a body at
      rest, full at or above 500, and past the dead zone above 50. */
  lemma BoundaryIntensityBySquares(v: Vec, speed: real)
    requires IsMagnitude(v, speed)
    ensures SqNorm(v) == 0.0 ==> BoundaryIntensity(speed) == 0.0
    ensures BoundaryIntensity(speed) == 1.0 <==> SqNorm(v) >= 500.0 * 500.0
    ensures BoundaryIntensity(speed) > DeadZone <==> SqNorm(v) > 50.0 * 50.0
  {
    SquareLess(speed, 500.0);
    SquareLess(50.0, speed);
    NormalizePassesDeadZone(speed, BoundaryReferenceSpeed);
    if SqNorm(v) == 0.0 {
      SquareLess(0.0, speed);
    }
  }

  /** Sphere–sphere intensity does not depend on which body is `A`, is full
      at or above a relative speed of 400, and passes the dead zone above 40. */
  lemma SphereIntensitySymmetric(va: Vec, vb: Vec, sab: real, sba: real)
    requires IsMagnitude(Diff(va, vb), sab) && IsMagnitude(Diff(vb, va), sba)
    ensures SphereIntensity(sab) == SphereIntensity(sba)
    ensures SphereIntensity(sab) == 1.0 <==> SqNorm(Diff(va, vb)) >= 400.0 * 400.0
    ensures SphereIntensity(sab) > DeadZone <==> SqNorm(Diff(va, vb)) > 40.0 * 40.0
  {
    DiffSqNormSymmetric(va, vb);
    MagnitudeUnique(Diff(va, vb), sab, sba);
    SquareLess(sab, 400.0);
    SquareLess(40.0, sab);
    NormalizePassesDeadZone(sab, SphereReferenceSpeed);
  }

  /** Worked values: a boundary hit at 250 is half intensity, a sphere
      contact at relative speed 800 is clamped to full. */
  lemma IntensityExamples()
    ensures BoundaryIntensity(250.0) == 0.5
    ensures SphereIntensity(800.0) == 1.0
    ensures BoundaryIntensity(0.0) == 0.0
  {
  }
}

=== FILE: motion.dfy ===
/** `handleMotionUpdate`: the device's gravity vector, scaled, becomes the
    gravity of the physics world. SpriteKit's y axis points up and the
    scene scales by 15; UIKit's y axis points down, so the view scales by
    3.5 and flips the sign of y. */
module Motion {
  import opened Haptics

  /** The scene's sensitivity (`physicsWorld.gravity` units). */
  const SceneSensitivity: real := 15.0
  /** The view's sensitivity (`gravityDirection` units). */
  const ViewSensitivity: real := 3.5

  /** The device gravity `motion.gravity`, in units of g; `x` points to the
      right of the screen and `y` to its top. */
  datatype Gravity = Gravity(x: real, y: real)

  /** The scene's update: `(x * 15, y * 15)` — the device's gravity kept
      in direction (parallel, same signs on both axes) and fifteen times as
      long. */
  function SceneGravity(g: Gravity): (v: Vec)
    ensures v.dx * g.y == v.dy * g.x
    ensures (v.dx > 0.0 <==> g.x > 0.0) && (v.dy > 0.0 <==> g.y > 0.0)
    ensures forall m :: IsMagnitude(Vec(g.x, g.y), m) ==> IsMagnitude(v, SceneSensitivity * m)
  {
    Vec(g.x * SceneSensitivity, g.y * SceneSensitivity)
  }

  /** The view's update: `(x * 3.5, y * -3.5)` — the device's gravity
      mirrored in y (UIKit's y axis points down) and 3.5 times as long. */
  function ViewGravity(g: Gravity): (v: Vec)
    ensures v.dx * g.y == -v.dy * g.x
    ensures (v.dx > 0.0 <==> g.x > 0.0) && (v.dy > 0.0 <==> g.y < 0.0)
    ensures forall m :: IsMagnitude(Vec(g.x, g.y), m) ==> IsMagnitude(v, ViewSensitivity * m)
  {
    Vec(g.x * ViewSensitivity, g.y * -ViewSensitivity)
  }

  /** Holding the device upright (gravity `(0, -1)`) pulls the spheres
      towards the bottom of the screen in both frames: down in SpriteKit's
      y-up frame, down in UIKit's y-down frame. */
  lemma UprightPullsDown()
    ensures SceneGravity(Gravity(0.0, -1.0)) == Vec(0.0, -15.0)
    ensures ViewGravity(Gravity(0.0, -1.0)) == Vec(0.0, 3.5)
  {
  }

  /** The two frames agree on direction: the view's gravity is the scene's
      with y mirrored, scaled by `3.5 / 15`. */
  lemma FramesAgree(g: Gravity)
    ensures ViewGravity(g).dx * SceneSensitivity == SceneGravity(g).dx * ViewSensitivity
    ensures ViewGravity(g).dy * SceneSensitivity == -SceneGravity(g).dy * ViewSensitivity
  {
  }

  /** Tilting towards a side pulls towards that side of the screen in both
      frames, and the pull grows with the tilt. */
  lemma TiltDirection(g1: Gravity, g2: Gravity)
    requires g1.x < g2.x && g1.y < g2.y
    ensures SceneGravity(g1).dx < SceneGravity(g2).dx && ViewGravity(g1).dx < ViewGravity(g2).dx
    ensures SceneGravity(g1).dy < SceneGravity(g2).dy && ViewGravity(g1).dy > ViewGravity(g2).dy
  {
  }
}

=== FILE: packing_rules.dfy ===
/** The acceptance rule shared by both placement strategies of
    `CirclePackingAlgorithm`: a candidate must pass `isValidPosition` and
    keep the minimum separation from every circle already placed. */
module PackingRules {
  import opened RoundedRect

  /** The arguments of `packCircles` other than the count. */
  datatype Setup = Setup(size: Size, cornerRadius: real, circleRadius: real)

  /** The separation factor: centres must be `2.2 * circleRadius` apart. */
  const SeparationFactor: real := 2.2

  /** `circleRadius * 2.2`, both the minimum separation and the grid pitch. */
  function Spacing(s: Setup): real { s.circleRadius * SeparationFactor }

  function MarginOf(s: Setup): real { Margin(s.circleRadius) }

  function SafeRectOf(s: Setup): Rect { SafeRect(s.size, MarginOf(s)) }

  /** The source's `sqrt(dx² + dy²) < circleRadius * 2.2`: a distance (never
      negative) is below the spacing exactly when the spacing is positive and
      the squared distance is below its square. */
  predicate TooClose(s: Setup, a: Point, b: Point) {
    Spacing(s) > 0.0 && DistSq(a, b) < Spacing(s) * Spacing(s)
  }

  /** Distance at least `2.2 * circleRadius`, stated on squares. */
  predicate Separated(s: Setup, a: Point, b: Point) {
    Spacing(s) <= 0.0 || DistSq(a, b) >= Spacing(s) * Spacing(s)
  }

  lemma SeparatedSymmetric(s: Setup, a: Point, b: Point)
    ensures Separated(s, a, b) <==> Separated(s, b, a)
  {
    DistSqSymmetric(a, b);
  }

  /** The validity test with the margin `packCircles` passes. */
  predicate Valid(s: Setup, p: Point) {
    IsValidPosition(p, s.size, s.cornerRadius, MarginOf(s))
  }

  /** The `for existingPos in positions` scan with `break` on the first
      circle that is too close. */
  function ClearOf(s: Setup, ps: seq<Point>, p: Point): (ok: bool)
    ensures ok <==> forall i :: 0 <= i < |ps| ==> Separated(s, p, ps[i])
  {
    if |ps| == 0 then true
    else if TooClose(s, p, ps[0]) then false
    else ClearOf(s, ps[1..], p)
  }

  /** A candidate both strategies accept. */
  predicate Acceptable(s: Setup, ps: seq<Point>, p: Point) {
    Valid(s, p) && ClearOf(s, ps, p)
  }

  /** The geometric invariant of a placement: every point valid, every pair
      separated. */
  predicate WellPlaced(s: Setup, ps: seq<Point>) {
    && (forall i :: 0 <= i < |ps| ==> Valid(s, ps[i]))
    && (forall i, j :: 0 <= i < |ps| && 0 <= j < |ps| && i != j ==> Separated(s, ps[i], ps[j]))
  }

  /** Appending an acceptable candidate keeps a placement well placed. */
  lemma {:induction false} AppendAcceptable(s: Setup, ps: seq<Point>, p: Point)
    requires WellPlaced(s, ps)
    requires Acceptable(s, ps, p)
    ensures WellPlaced(s, ps + [p])
  {
    var qs := ps + [p];
    forall i, j | 0 <= i < |qs| && 0 <= j < |qs| && i != j
      ensures Separated(s, qs[i], qs[j])
    {
      if j == |ps| {
        assert Separated(s, p, ps[i]);
        SeparatedSymmetric(s, p, ps[i]);
      } else if i == |ps| {
        assert Separated(s, p, ps[j]);
      } else {
        assert Separated(s, ps[i], ps[j]);
      }
    }
  }
}

=== FILE: prelude.dfy ===
/** Small shared vocabulary: optional values, Swift runtime traps and the
    `min`/`max` helpers the Swift code uses on reals and integers. */
module Prelude {

  /** An optional value, Swift's `T?`. */
  datatype Option<+T> = None | Some(value: T)

  /** The result of code that may hit a Swift runtime trap (an inverted
      closed range, a conversion of a non-finite value to `Int`): either it
      finishes with a value, or the process stops. */
  datatype Outcome<+T> = Done(value: T) | Trap

  function Min(a: real, b: real): real { if a <= b then a else b }
  function Max(a: real, b: real): real { if a <= b then b else a }
  function MinInt(a: int, b: int): int { if a <= b then a else b }
  function MaxInt(a: int, b: int): int { if a <= b then b else a }
  function AbsInt(a: int): nat { if a < 0 then -a else a }

  /** `min(max(x, lo), hi)`, written in the order the Swift code nests it. */
  function Clamp(x: real, lo: real, hi: real): (r: real)
    requires lo <= hi
    ensures lo <= r <= hi
    ensures lo <= x <= hi ==> r == x
    ensures x <= lo ==> r == lo
    ensures hi <= x ==> r == hi
  {
    Min(Max(x, lo), hi)
  }

  /** Swift's `Int(_: CGFloat)` on a finite value: truncation toward zero. */
  function Truncate(x: real): (n: int)
    ensures 0.0 <= x ==> 0 <= n && n as real <= x < n as real + 1.0
    ensures x <= 0.0 ==> n <= 0 && n as real - 1.0 < x <= n as real
  {
    if x >= 0.0 then x.Floor else -((-x).Floor)
  }
}

=== FILE: rounded_rect.dfy ===
/** The rounded-container validity test of `CirclePackingAlgorithm`
    (`isValidPosition`): a candidate centre must lie in the safe rectangle
    and, inside each of the four corner quadrants, within the corner arc. */
module RoundedRect {
  import opened Prelude

  datatype Point = Point(x: real, y: real)
  datatype Size = Size(width: real, height: real)

  /** A rectangle as CoreGraphics reports it through `minX`, `minY`, `maxX`
      and `maxY`: those accessors normalise a negative width or height, so
      the bounds are always ordered. */
  datatype Rect = Rect(minX: real, minY: real, maxX: real, maxY: real)

  /** The fixed inset of the container's edge loop. */
  const Inset: real := 4.0
  /** The buffer added to the circle radius to form the margin. */
  const Buffer: real := 3.0

  /** `margin = circleRadius + 3`. */
  function Margin(circleRadius: real): real { circleRadius + Buffer }

  /** `CGRect(x:y:width:height:)` seen through its normalising accessors. */
  function MakeRect(x: real, y: real, width: real, height: real): (r: Rect)
    ensures r.minX <= r.maxX && r.minY <= r.maxY
    ensures width >= 0.0 ==> r.minX == x && r.maxX == x + width
    ensures width <= 0.0 ==> r.minX == x + width && r.maxX == x
    ensures height >= 0.0 ==> r.minY == y && r.maxY == y + height
    ensures height <= 0.0 ==> r.minY == y + height && r.maxY == y
  {
    Rect(Min(x, x + width), Min(y, y + height), Max(x, x + width), Max(y, y + height))
  }

  /** The container inset on every side by `inset + margin`. */
  function SafeRect(size: Size, margin: real): (r: Rect)
    ensures r.minX <= r.maxX && r.minY <= r.maxY
    ensures size.width >= 2.0 * (Inset + margin) ==>
              r.minX == Inset + margin && r.maxX == size.width - (Inset + margin)
    ensures size.height >= 2.0 * (Inset + margin) ==>
              r.minY == Inset + margin && r.maxY == size.height - (Inset + margin)
  {
    var o := Inset + margin;
    MakeRect(o, o, size.width - 2.0 * o, size.height - 2.0 * o)
  }

  function Width(r: Rect): real { r.maxX - r.minX }
  function Height(r: Rect): real { r.maxY - r.minY }

  /** The closed-rectangle test of the guard in `isValidPosition`. */
  predicate InRect(p: Point, r: Rect) {
    r.minX <= p.x <= r.maxX && r.minY <= p.y <= r.maxY
  }

  function DistSq(a: Point, b: Point): real {
    (a.x - b.x) * (a.x - b.x) + (a.y - b.y) * (a.y - b.y)
  }

  lemma DistSqSymmetric(a: Point, b: Point)
    ensures DistSq(a, b) == DistSq(b, a)
  {
    assert (a.x - b.x) * (a.x - b.x) == (b.x - a.x) * (b.x - a.x);
    assert (a.y - b.y) * (a.y - b.y) == (b.y - a.y) * (b.y - a.y);
  }

  /** The centre of corner arc `i`, in the order the source lists them:
      0 = (min, min), 1 = (max, min), 2 = (min, max), 3 = (max, max). */
  function ArcCentre(r: Rect, adj: real, i: nat): Point
    requires i < 4
  {
    match i
    case 0 => Point(r.minX + adj, r.minY + adj)
    case 1 => Point(r.maxX - adj, r.minY + adj)
    case 2 => Point(r.minX + adj, r.maxY - adj)
    case 3 => Point(r.maxX - adj, r.maxY - adj)
  }

  /** Whether an offset `(dx, dy)` from arc centre `i` points into that
      corner's quadrant (the boundary lines belong to the quadrant). */
  predicate InCornerQuadrant(i: nat, dx: real, dy: real)
    requires i < 4
  {
    match i
    case 0 => dx <= 0.0 && dy <= 0.0
    case 1 => dx >= 0.0 && dy <= 0.0
    case 2 => dx <= 0.0 && dy >= 0.0
    case 3 => dx >= 0.0 && dy >= 0.0
  }

  /** The negation of the source's `sqrt(dx*dx + dy*dy) > adj`: a Euclidean
      distance (never negative) is at most `adj` exactly when `adj` is not
      negative and the squared distance is at most `adj * adj`. */
  predicate WithinArc(dx: real, dy: real, adj: real) {
    adj >= 0.0 && dx * dx + dy * dy <= adj * adj
  }

  /** `p` lies in the quadrant of corner `i`. */
  predicate InCornerOf(p: Point, r: Rect, adj: real, i: nat)
    requires i < 4
  {
    var c := ArcCentre(r, adj, i);
    InCornerQuadrant(i, p.x - c.x, p.y - c.y)
  }

  /** Corner `i` does not reject `p`. */
  predicate CornerAccepts(p: Point, r: Rect, adj: real, i: nat)
    requires i < 4
  {
    var c := ArcCentre(r, adj, i);
    !InCornerQuadrant(i, p.x - c.x, p.y - c.y) || WithinArc(p.x - c.x, p.y - c.y, adj)
  }

  /** No corner rejects `p`. */
  predicate AllCornersAccept(p: Point, r: Rect, adj: real) {
    forall i: nat :: i < 4 ==> CornerAccepts(p, r, adj, i)
  }

  /** `p` lies in none of the four corner quadrants. */
  predicate OutsideCornerQuadrants(p: Point, r: Rect, adj: real) {
    forall i: nat :: i < 4 ==> !InCornerOf(p, r, adj, i)
  }

  /** The `for (i, corner) in corners.enumerated()` loop from corner `i` on,
      returning `false` at the first corner that rejects. */
  function CheckCorners(p: Point, r: Rect, adj: real, i: nat): (ok: bool)
    requires i <= 4
    decreases 4 - i
    ensures ok <==> forall j: nat :: i <= j < 4 ==> CornerAccepts(p, r, adj, j)
  {
    if i == 4 then true
    else if !CornerAccepts(p, r, adj, i) then false
    else CheckCorners(p, r, adj, i + 1)
  }

  /** `isValidPosition(position, containerSize:, cornerRadius:, margin:)`. */
  function IsValidPosition(p: Point, size: Size, cornerRadius: real, margin: real): (ok: bool)
    ensures ok <==> InRect(p, SafeRect(size, margin)) &&
                    AllCornersAccept(p, SafeRect(size, margin), cornerRadius - margin)
  {
    var rect := SafeRect(size, margin);
    if !InRect(p, rect) then false
    else CheckCorners(p, rect, cornerRadius - margin, 0)
  }

  /** A point in corner `i`'s quadrant that is farther than
      `cornerRadius - margin` from the arc centre is rejected. */
  lemma CornerRejects(p: Point, size: Size, cornerRadius: real, margin: real, i: nat)
    requires i < 4
    requires var c := ArcCentre(SafeRect(size, margin), cornerRadius - margin, i);
             InCornerQuadrant(i, p.x - c.x, p.y - c.y) &&
             (cornerRadius - margin < 0.0 ||
              DistSq(p, c) > (cornerRadius - margin) * (cornerRadius - margin))
    ensures !IsValidPosition(p, size, cornerRadius, margin)
  {
    assert !CornerAccepts(p, SafeRect(size, margin), cornerRadius - margin, i);
  }

  /** A point outside every corner quadrant is judged by the rectangle
      test alone. */
  lemma OutsideCornersIsRectTest(p: Point, size: Size, cornerRadius: real, margin: real)
    requires OutsideCornerQuadrants(p, SafeRect(size, margin), cornerRadius - margin)
    ensures IsValidPosition(p, size, cornerRadius, margin) <==> InRect(p, SafeRect(size, margin))
  {
    var r, adj := SafeRect(size, margin), cornerRadius - margin;
    forall i: nat | i < 4
      ensures CornerAccepts(p, r, adj, i)
    {
      assert !InCornerOf(p, r, adj, i);
    }
  }

  // ---------------------------------------------------------------------
  // An independent description of the accepted region: when the arc radius
  // fits, the four corner tests carve exactly the rounded rectangle whose
  // points lie within `adj` of the inner rectangle of arc centres.
  // ---------------------------------------------------------------------

  /** The point of the inner rectangle (spanned by the four arc centres)
      nearest to `p`. */
  function NearestInner(p: Point, r: Rect, adj: real): Point
    requires 2.0 * adj <= Width(r) && 2.0 * adj <= Height(r)
  {
    Point(Clamp(p.x, r.minX + adj, r.maxX - adj), Clamp(p.y, r.minY + adj, r.maxY - adj))
  }

  /** The rounded rectangle of corner radius `adj` around rectangle `r`. */
  predicate InRoundedRect(p: Point, r: Rect, adj: real)
    requires 2.0 * adj <= Width(r) && 2.0 * adj <= Height(r)
  {
    DistSq(p, NearestInner(p, r, adj)) <= adj * adj
  }

  lemma SquareMonotone(a: real, b: real)
    requires 0.0 <= a <= b
    ensures a * a <= b * b
  {
    assert a * a <= a * b <= b * b;
  }

  lemma SquareStrictMonotone(a: real, b: real)
    requires 0.0 <= a < b
    ensures a * a < b * b
  {
    assert (b - a) * a >= 0.0;
    assert (b - a) * b > 0.0;
  }

  lemma SquareNonNegative(a: real)
    ensures a * a >= 0.0
  {
  }

  /** On one axis: the offset from the inner interval `[lo + adj, hi - adj]`
      is at most `adj` in absolute value exactly when `v` lies in `[lo, hi]`. */
  lemma AxisOffset(v: real, lo: real, hi: real, adj: real)
    requires 0.0 <= adj && 2.0 * adj <= hi - lo
    ensures var d := v - Clamp(v, lo + adj, hi - adj);
            (lo <= v <= hi ==> d * d <= adj * adj) &&
            (!(lo <= v <= hi) ==> d * d > adj * adj)
  {
    var d := v - Clamp(v, lo + adj, hi - adj);
    if v < lo {
      SquareStrictMonotone(adj, -d);
    } else if v < lo + adj {
      SquareMonotone(-d, adj);
    } else if v <= hi - adj {
      assert d == 0.0;
    } else if v <= hi {
      SquareMonotone(d, adj);
    } else {
      SquareStrictMonotone(adj, d);
    }
  }

  /** The rounded rectangle lies inside the rectangle it rounds. */
  lemma RoundedInsideRect(p: Point, r: Rect, adj: real)
    requires 0.0 <= adj && 2.0 * adj <= Width(r) && 2.0 * adj <= Height(r)
    requires InRoundedRect(p, r, adj)
    ensures InRect(p, r)
  {
    var q := NearestInner(p, r, adj);
    AxisOffset(p.x, r.minX, r.maxX, adj);
    AxisOffset(p.y, r.minY, r.maxY, adj);
    SquareNonNegative(p.x - q.x);
    SquareNonNegative(p.y - q.y);
  }

  /** Along an edge (one coordinate within the inner interval) every corner
      accepts a point of the rectangle, and the point is in the rounded
      rectangle. */
  lemma EdgeBand(p: Point, r: Rect, adj: real)
    requires 0.0 <= adj && 2.0 * adj <= Width(r) && 2.0 * adj <= Height(r)
    requires r.minX + adj <= p.x <= r.maxX - adj || r.minY + adj <= p.y <= r.maxY - adj
    requires InRect(p, r)
    ensures AllCornersAccept(p, r, adj)
    ensures InRoundedRect(p, r, adj)
  {
    var q := NearestInner(p, r, adj);
    AxisOffset(p.x, r.minX, r.maxX, adj);
    AxisOffset(p.y, r.minY, r.maxY, adj);
    var dx, dy := p.x - q.x, p.y - q.y;
    if dx == 0.0 {
      assert DistSq(p, q) == dy * dy;
    } else {
      assert dy == 0.0;
      assert DistSq(p, q) == dx * dx;
    }
    forall i: nat | i < 4
      ensures CornerAccepts(p, r, adj, i)
    {
      var c := ArcCentre(r, adj, i);
      if InCornerQuadrant(i, p.x - c.x, p.y - c.y) {
        assert p.x - c.x == dx && p.y - c.y == dy;
      }
    }
  }

  /** In a corner region (both coordinates outside the inner intervals) the
      nearest inner point is that corner's arc centre, and only that corner's
      test can reject. */
  lemma CornerRegion(p: Point, r: Rect, adj: real, i: nat)
    requires 0.0 <= adj && 2.0 * adj <= Width(r) && 2.0 * adj <= Height(r)
    requires i < 4
    requires i == (if p.x < r.minX + adj then (if p.y < r.minY + adj then 0 else 2)
                   else (if p.y < r.minY + adj then 1 else 3))
    requires !(r.minX + adj <= p.x <= r.maxX - adj) && !(r.minY + adj <= p.y <= r.maxY - adj)
    ensures ArcCentre(r, adj, i) == NearestInner(p, r, adj)
    ensures CornerAccepts(p, r, adj, i) <==> InRoundedRect(p, r, adj)
    ensures forall j: nat :: j < 4 && j != i ==> CornerAccepts(p, r, adj, j)
  {
    var c := ArcCentre(r, adj, i);
    assert InCornerQuadrant(i, p.x - c.x, p.y - c.y);
    forall j: nat | j < 4 && j != i
      ensures CornerAccepts(p, r, adj, j)
    {
      var cj := ArcCentre(r, adj, j);
      assert !InCornerQuadrant(j, p.x - cj.x, p.y - cj.y);
    }
  }

  /** The accepted region of `isValidPosition` is the rounded rectangle of
      radius `cornerRadius - margin` inscribed in the safe rectangle,
      whenever that radius is non-negative and fits twice into both sides. */
  lemma {:induction false} ValidIsRoundedRect(p: Point, size: Size, cornerRadius: real, margin: real)
    requires var r := SafeRect(size, margin); var adj := cornerRadius - margin;
             0.0 <= adj && 2.0 * adj <= Width(r) && 2.0 * adj <= Height(r)
    ensures IsValidPosition(p, size, cornerRadius, margin) <==>
            InRoundedRect(p, SafeRect(size, margin), cornerRadius - margin)
  {
    var r := SafeRect(size, margin);
    var adj := cornerRadius - margin;
    if InRoundedRect(p, r, adj) {
      RoundedInsideRect(p, r, adj);
    }
    if InRect(p, r) {
      if r.minX + adj <= p.x <= r.maxX - adj || r.minY + adj <= p.y <= r.maxY - adj {
        EdgeBand(p, r, adj);
      } else {
        var i: nat := if p.x < r.minX + adj then (if p.y < r.minY + adj then 0 else 2)
                      else (if p.y < r.minY + adj then 1 else 3);
        CornerRegion(p, r, adj, i);
      }
    }
  }
}

=== FILE: spheres.dfy ===
/** The jar's contents: seven "perfect", five "nice" and five "good" day
    spheres, shuffled, then placed one per packed position in shuffled
    order. The scene places every sphere that has a position; the
    UIDynamics view also skips a sphere whose animation file fails to
    load. */
module Spheres {
  import opened Prelude
  import opened RoundedRect
  import opened PackingRules
  import opened GridSearch
  import opened CirclePacking

  datatype SphereType = PerfectDay | NiceDay | GoodDay

  /** `SphereType.count`: how many spheres of each kind the jar holds. */
  function Count(t: SphereType): nat {
    match t
    case PerfectDay => 7
    case NiceDay => 5
    case GoodDay => 5
  }

  /** The total number of spheres, `7 + 5 + 5`. */
  const Total: nat := 17

  /** `Array(repeating: t, count: n)`. */
  function Repeat(t: SphereType, n: nat): (r: seq<SphereType>)
    ensures |r| == n && multiset(r)[t] == n
    ensures forall u :: u != t ==> multiset(r)[u] == 0
  {
    if n == 0 then [] else Repeat(t, n - 1) + [t]
  }

  /** The list `generateShuffledTypes` builds before shuffling (the
      `for type in allCases` loop, unrolled over the three kinds in
      declaration order): exactly `Count(t)` spheres of each kind `t`,
      seventeen in all. */
  function UnshuffledTypes(): (r: seq<SphereType>)
    ensures forall t :: multiset(r)[t] == Count(t)
    ensures |r| == Total
  {
    var r := Repeat(PerfectDay, Count(PerfectDay)) + Repeat(NiceDay, Count(NiceDay)) + Repeat(GoodDay, Count(GoodDay));
    assert multiset(r) == multiset(Repeat(PerfectDay, 7)) + multiset(Repeat(NiceDay, 5)) + multiset(Repeat(GoodDay, 5));
    r
  }

  /** `swapAt(i, j)`: exchanges two entries and keeps the rest. */
  function Swap(s: seq<SphereType>, i: nat, j: nat): (r: seq<SphereType>)
    requires i < |s| && j < |s|
    ensures |r| == |s| && r[i] == s[j] && r[j] == s[i]
    ensures forall k :: 0 <= k < |s| && k != i && k != j ==> r[k] == s[k]
    ensures multiset(r) == multiset(s)
  {
    s[i := s[j]][j := s[i]]
  }

  /** The random source of `shuffled()`: the offset `pick(i)` drawn from
      `0 ..< n - i` at position `i` of a list of `n` entries (an offset past
      the range stands for the last one). */
  type Picker = nat -> nat

  /** The position drawn at step `i` of a list of `n` entries. */
  function Drawn(pick: Picker, i: nat, n: nat): (j: nat)
    requires i < n
    ensures i <= j < n
  {
    i + MinInt(pick(i), n - i - 1)
  }

  /** `shuffled()` (Fisher–Yates), from position `i` on: while at least two
      entries remain, swap position `i` with a drawn position `i + d`. */
  function Shuffle(s: seq<SphereType>, pick: Picker, i: nat): (r: seq<SphereType>)
    requires i <= |s|
    decreases |s| - i
    ensures |r| == |s| && multiset(r) == multiset(s)
    ensures r[..i] == s[..i]
  {
    if |s| - i <= 1 then s
    else
      var r := Shuffle(Swap(s, i, Drawn(pick, i, |s|)), pick, i + 1);
      assert r[..i] == r[..i + 1][..i];
      r
  }

  /** `generateShuffledTypes()`. */
  function GenerateShuffledTypes(pick: Picker): (r: seq<SphereType>)
    ensures |r| == Total
    ensures forall t :: multiset(r)[t] == Count(t)
  {
    Shuffle(UnshuffledTypes(), pick, 0)
  }

  /** The shuffle only reads the draws for positions `i` and later. */
  lemma {:induction false} ShuffleReadsLaterDraws(s: seq<SphereType>, p1: Picker, p2: Picker, i: nat)
    requires i <= |s|
    requires forall k :: i <= k ==> p1(k) == p2(k)
    decreases |s| - i
    ensures Shuffle(s, p1, i) == Shuffle(s, p2, i)
  {
    if |s| - i > 1 {
      assert Drawn(p1, i, |s|) == Drawn(p2, i, |s|);
      ShuffleReadsLaterDraws(Swap(s, i, Drawn(p1, i, |s|)), p1, p2, i + 1);
    }
  }

  /** Removing the same head from two lists with equal multisets leaves
      tails with equal multisets. */
  lemma TailMultiset(a: seq<SphereType>, b: seq<SphereType>)
    requires |a| > 0 && |b| > 0 && a[0] == b[0] && multiset(a) == multiset(b)
    ensures multiset(a[1..]) == multiset(b[1..])
  {
    assert a == [a[0]] + a[1..];
    assert b == [b[0]] + b[1..];
    assert multiset(a) == multiset{a[0]} + multiset(a[1..]);
    assert multiset(b) == multiset{b[0]} + multiset(b[1..]);
    forall x ensures multiset(a[1..])[x] == multiset(b[1..])[x] {
      assert multiset(a)[x] == multiset{a[0]}[x] + multiset(a[1..])[x];
      assert multiset(b)[x] == multiset{b[0]}[x] + multiset(b[1..])[x];
    }
  }

  /** A swap inside the tail `s[i..]` keeps the tail's multiset. */
  lemma SwapKeepsTail(s: seq<SphereType>, i: nat, j: nat)
    requires i <= j < |s|
    ensures multiset(Swap(s, i, j)[i..]) == multiset(s[i..])
  {
    var r := Swap(s, i, j);
    assert s == s[..i] + s[i..];
    assert r == r[..i] + r[i..];
    assert r[..i] == s[..i];
  }

  /** An entry of `s[i..]` found by its multiset lies at some position `j >= i`. */
  lemma FindInTail(s: seq<SphereType>, i: nat, x: SphereType) returns (j: nat)
    requires i <= |s| && x in multiset(s[i..])
    ensures i <= j < |s| && s[j] == x
  {
    assert x in s[i..];
    var k :| 0 <= k < |s[i..]| && s[i..][k] == x;
    j := i + k;
  }

  /** Lists that agree before `i` and hold the same single entry from `i`
      on are equal. */
  lemma SameLast(s: seq<SphereType>, t: seq<SphereType>, i: nat)
    requires i <= |s| == |t| && |s| - i <= 1
    requires s[..i] == t[..i] && multiset(s[i..]) == multiset(t[i..])
    ensures s == t
  {
    if i < |s| {
      assert s[i..] == [s[i]] && t[i..] == [t[i]];
      assert s[i] in multiset{t[i]};
      assert s == s[..i] + [s[i]] && t == t[..i] + [t[i]];
    } else {
      assert s == s[..i] && t == t[..i];
    }
  }

  /** One Fisher–Yates step can bring `t[i]` to position `i`, leaving the
      same entries after `i` in both lists. */
  lemma MatchHead(s: seq<SphereType>, t: seq<SphereType>, i: nat) returns (j: nat)
    requires i < |s| == |t|
    requires s[..i] == t[..i] && multiset(s[i..]) == multiset(t[i..])
    ensures i <= j < |s|
    ensures Swap(s, i, j)[..i + 1] == t[..i + 1]
    ensures multiset(Swap(s, i, j)[i + 1..]) == multiset(t[i + 1..])
  {
    assert t[i] in multiset(t[i..]) by { assert t[i..][0] == t[i]; }
    j := FindInTail(s, i, t[i]);
    var s' := Swap(s, i, j);
    SwapKeepsTail(s, i, j);
    assert s'[i..][0] == t[i..][0];
    TailMultiset(s'[i..], t[i..]);
    assert s'[i..][1..] == s'[i + 1..] && t[i..][1..] == t[i + 1..];
    assert s'[..i] == s[..i];
    assert s'[..i + 1] == s'[..i] + [s'[i]] && t[..i + 1] == t[..i] + [t[i]];
  }

  /** Every arrangement of the list is an outcome of the shuffle for some
      sequence of draws: with `s` and `t` agreeing before `i` and holding the
      same entries from `i` on, some draws take `s` to `t`. */
  lemma {:induction false} ShuffleReachesEveryArrangement(s: seq<SphereType>, t: seq<SphereType>, i: nat)
    requires i <= |s| == |t|
    requires s[..i] == t[..i] && multiset(s[i..]) == multiset(t[i..])
    decreases |s| - i
    ensures exists pick: Picker :: Shuffle(s, pick, i) == t
  {
    if |s| - i <= 1 {
      ShuffleReachesLast(s, t, i);
    } else {
      var j := MatchHead(s, t, i);
      ShuffleReachesEveryArrangement(Swap(s, i, j), t, i + 1);
      var rest: Picker :| Shuffle(Swap(s, i, j), rest, i + 1) == t;
      ShuffleFirstDraw(s, i, j, rest);
      assert Shuffle(s, Override(rest, i, j - i), i) == t;
    }
  }

  /** Draws that are all zero. */
  const NoDraws: Picker := k => 0

  /** With at most one entry left, the shuffle is done: the arrangement is
      already reached. */
  lemma ShuffleReachesLast(s: seq<SphereType>, t: seq<SphereType>, i: nat)
    requires i <= |s| == |t| && |s| - i <= 1
    requires s[..i] == t[..i] && multiset(s[i..]) == multiset(t[i..])
    ensures Shuffle(s, NoDraws, i) == t
  {
    SameLast(s, t, i);
  }

  /** `rest`, except that the draw at position `i` is `d`. */
  function Override(rest: Picker, i: nat, d: nat): Picker {
    k => if k == i then d else rest(k)
  }

  /** Fixing the first draw to `j - i` makes the shuffle swap `i` with `j`
      and continue with the other draws. */
  lemma ShuffleFirstDraw(s: seq<SphereType>, i: nat, j: nat, rest: Picker)
    requires i + 1 < |s| && i <= j < |s|
    ensures Shuffle(s, Override(rest, i, j - i), i) == Shuffle(Swap(s, i, j), rest, i + 1)
  {
    var pick := Override(rest, i, j - i);
    assert Drawn(pick, i, |s|) == j;
    ShuffleReadsLaterDraws(Swap(s, i, j), pick, rest, i + 1);
  }

  /** Every list with seven, five and five spheres of the three kinds is a
      possible result of `generateShuffledTypes`. */
  lemma GenerateReachesEveryArrangement(t: seq<SphereType>)
    requires forall k :: multiset(t)[k] == Count(k)
    ensures exists pick: Picker :: GenerateShuffledTypes(pick) == t
  {
    var u := UnshuffledTypes();
    SameCounts(u, t);
    assert u[..0] == t[..0] && u[0..] == u && t[0..] == t;
    ShuffleReachesEveryArrangement(u, t, 0);
    var pick: Picker :| Shuffle(u, pick, 0) == t;
    assert GenerateShuffledTypes(pick) == t;
  }

  /** Lists with the same count of every kind are rearrangements of each other. */
  lemma SameCounts(u: seq<SphereType>, t: seq<SphereType>)
    requires forall k :: multiset(u)[k] == multiset(t)[k]
    ensures multiset(u) == multiset(t) && |u| == |t|
  {
    assert multiset(u) == multiset(t);
    assert |multiset(u)| == |multiset(t)|;
  }

  /** A sphere placed in the jar: its kind and its starting centre. */
  datatype Sphere = Sphere(kind: SphereType, at: Point)

  /** The `for (index, type) in sphereTypes.enumerated()` loop over the first
      `n` indices: index `k` gets a sphere when it has a position and
      `loads(k)` holds (`loads` is whether the sphere's asset loads). */
  function Enumerate(types: seq<SphereType>, positions: seq<Point>, loads: nat -> bool, n: nat): (r: seq<Sphere>)
    requires n <= |types|
    ensures |r| <= n && |r| <= |positions|
    ensures n <= |positions| && (forall k :: 0 <= k < n ==> loads(k)) ==> |r| == n
    ensures forall i :: 0 <= i < |r| ==> r[i].kind in types[..n] && r[i].at in positions
  {
    if n == 0 then []
    else
      var k := n - 1;
      Enumerate(types, positions, loads, k) +
        if k < |positions| && loads(k) then [Sphere(types[k], positions[k])] else []
  }

  /** The indices below `n` that receive a sphere, in increasing order. */
  function Placed(positions: seq<Point>, loads: nat -> bool, n: nat): (ix: seq<nat>)
    ensures forall a :: 0 <= a < |ix| ==> ix[a] < n && ix[a] < |positions| && loads(ix[a])
    ensures forall a, b :: 0 <= a < b < |ix| ==> ix[a] < ix[b]
  {
    if n == 0 then []
    else Placed(positions, loads, n - 1) + if n - 1 < |positions| && loads(n - 1) then [n - 1] else []
  }

  /** The loop creates, in order, one sphere for each placed index, with that
      index's kind and position. */
  lemma {:induction false} EnumerateIsPlaced(types: seq<SphereType>, positions: seq<Point>, loads: nat -> bool, n: nat)
    requires n <= |types|
    ensures var r, ix := Enumerate(types, positions, loads, n), Placed(positions, loads, n);
            |r| == |ix| && forall a :: 0 <= a < |r| ==> r[a] == Sphere(types[ix[a]], positions[ix[a]])
  {
    if n > 0 {
      EnumerateIsPlaced(types, positions, loads, n - 1);
      var r0, ix0 := Enumerate(types, positions, loads, n - 1), Placed(positions, loads, n - 1);
      var r, ix := Enumerate(types, positions, loads, n), Placed(positions, loads, n);
      if n - 1 < |positions| && loads(n - 1) {
        assert r == r0 + [Sphere(types[n - 1], positions[n - 1])];
        assert ix == ix0 + [n - 1];
        forall a | 0 <= a < |r| ensures r[a] == Sphere(types[ix[a]], positions[ix[a]]) {
          if a < |r0| {
            assert r[a] == r0[a] && ix[a] == ix0[a];
          }
        }
      } else {
        assert r == r0 && ix == ix0;
      }
    }
  }

  /** `BottleScene.createSpheres`: one sphere for every shuffled type that
      has a packed position, the `k`-th with the `k`-th type and position. */
  function SceneSpheres(types: seq<SphereType>, positions: seq<Point>): (r: seq<Sphere>)
    ensures |r| == MinInt(|types|, |positions|)
    ensures forall k :: 0 <= k < |r| ==> r[k] == Sphere(types[k], positions[k])
  {
    var all: nat -> bool := k => true;
    EnumerateIsPlaced(types, positions, all, |types|);
    PlacedIsPrefix(positions, |types|);
    Enumerate(types, positions, all, |types|)
  }

  /** When every index loads, the placed indices are exactly `0 ..< min(n, |positions|)`. */
  lemma {:induction false} PlacedIsPrefix(positions: seq<Point>, n: nat)
    ensures var ix := Placed(positions, k => true, n);
            |ix| == MinInt(n, |positions|) && forall a :: 0 <= a < |ix| ==> ix[a] == a
  {
    if n > 0 {
      PlacedIsPrefix(positions, n - 1);
    }
  }

  /** `UD/BottleView.createSpheres`: as the scene, but a sphere whose asset
      fails to load is skipped; the remaining spheres keep their order. */
  function ViewSpheres(types: seq<SphereType>, positions: seq<Point>, loads: nat -> bool): (r: seq<Sphere>)
    ensures |r| <= MinInt(|types|, |positions|)
    ensures var ix := Placed(positions, loads, |types|);
            |r| == |ix| && forall a :: 0 <= a < |r| ==> r[a] == Sphere(types[ix[a]], positions[ix[a]])
  {
    EnumerateIsPlaced(types, positions, loads, |types|);
    PlacedBound(positions, loads, |types|);
    Enumerate(types, positions, loads, |types|)
  }

  /** At most `min(n, |positions|)` indices are placed. */
  lemma {:induction false} PlacedBound(positions: seq<Point>, loads: nat -> bool, n: nat)
    ensures |Placed(positions, loads, n)| <= MinInt(n, |positions|)
  {
    if n > 0 {
      PlacedBound(positions, loads, n - 1);
    }
  }

  /** Every index below `n` that has a position and loads is placed. */
  lemma {:induction false} PlacedIsComplete(positions: seq<Point>, loads: nat -> bool, n: nat, k: nat)
    requires k < n && k < |positions| && loads(k)
    ensures k in Placed(positions, loads, n)
  {
    if k < n - 1 {
      PlacedIsComplete(positions, loads, n - 1, k);
    }
  }

  /** With every asset loading, the view creates exactly the scene's spheres. */
  lemma ViewMatchesSceneWhenAllLoad(types: seq<SphereType>, positions: seq<Point>, loads: nat -> bool)
    requires forall k :: loads(k)
    ensures ViewSpheres(types, positions, loads) == SceneSpheres(types, positions)
  {
    var all: nat -> bool := k => true;
    PlacedSameLoads(positions, loads, all, |types|);
    PlacedIsPrefix(positions, |types|);
  }

  /** `Placed` depends only on the values of `loads`. */
  lemma {:induction false} PlacedSameLoads(positions: seq<Point>, l1: nat -> bool, l2: nat -> bool, n: nat)
    requires forall k :: l1(k) == l2(k)
    ensures Placed(positions, l1, n) == Placed(positions, l2, n)
  {
    if n > 0 {
      PlacedSameLoads(positions, l1, l2, n - 1);
    }
  }

  /** The setup both jars use: the container, corner radius 85 and spheres
      of radius 20. */
  function JarSetup(size: Size): Setup { Setup(size, 85.0, 20.0) }

  /** The scene's spheres start where the packing put them: inside the
      rounded safe region and pairwise at least `2.2 * radius` apart. */
  lemma SceneSpheresWellPlaced(s: Setup, types: seq<SphereType>, ps: seq<Point>)
    requires |ps| <= |types| && WellPlaced(s, ps)
    ensures var spheres := SceneSpheres(types, ps);
            && |spheres| == |ps|
            && (forall k :: 0 <= k < |spheres| ==> Valid(s, spheres[k].at))
            && (forall k, l :: 0 <= k < |spheres| && 0 <= l < |spheres| && k != l
                  ==> Separated(s, spheres[k].at, spheres[l].at))
  {
    var spheres := SceneSpheres(types, ps);
    assert forall k :: 0 <= k < |spheres| ==> spheres[k].at == ps[k];
  }

  /** In the app's 290 x 345 container the packing never traps, so the
      scene gets one well-placed sphere per packed position, at most
      seventeen. */
  lemma AppSceneSpheres(pick: Picker, draw: Oracle)
    ensures var s := JarSetup(Size(290.0, 345.0));
            var types := GenerateShuffledTypes(pick);
            var packed := PackCircles(s, |types|, draw);
            && packed.Done?
            && |SceneSpheres(types, packed.value)| == |packed.value| <= Total
            && WellPlaced(s, packed.value)
  {
    AppContainerNeverTraps(Total, draw);
  }
}
